=== FILE: README.md ===
# Loan calculator core, modelled in Dafny

This project models the arithmetic engine of a browser loan-repayment calculator and the
formatter of its two year fields.

The calculator takes five numbers from a form:
- a principal;
- an annual interest rate in percent;
- a term in whole years;
- an extra monthly contribution;
- the number of whole years before that contribution starts.

From these it computes:
- the closed-form minimum monthly repayment;
- the total actually repaid when the extra is paid on top;
- the interest saved;
- the number of months saved, split into years and months and shown as "N years and M months";
- two yearly balance series for a chart, one with the extra and one without.

Each of these uses its own simulation, with its own capping and stopping rules, and the model keeps them apart.

All money is an exact `real`. JavaScript's NaN and Infinity become `None` of an `Option`, except in the chart, where a +Infinity repayment clears both balances in the first month. The year counts are `nat`.

Every loop of the source appears twice:
- as a recursive function that states what the loop computes;
- as a method that runs the loop as written, proved with loop invariants to return that function's value.

Modules:
- `Wrappers`: `Option`.
- `Decimal`: decimal digit strings and natural numbers, in both directions.
- `Loan`: the inputs, the monthly rate, the minimum repayment and the unclamped recurrence `b := b * (1 + r) - p` with its closed form.
- `Repay`: the `calculateTotalRepayment` ledger and `calculateInterestSaved`.
- `TimeSaved`: the two month counters of `calculateTimeSaved`.
- `Duration`: the years/months split and the "time saved" text, plus a reader that parses the text back.
- `BalanceChart`: `calculateLoanBalance`.
- `Calculator`: the figures `executeCalculations` puts on the page.
- `YearsField`: `formatYears` and `preserveValueOnInvalidInput`.

Results that need exact arithmetic, and that the floating-point code only approximates:
- the minimum repayment solves the annuity equation;
- the unclamped balance is positive for every month of the term and exactly zero at its end;
- so the simulation without extra pays exactly n minimum repayments;
- a non-negative extra therefore saves a non-negative amount of interest and time, and more extra, or extra started earlier, saves at least as much.

Two choices follow the code where a reader might expect otherwise:
- At a zero rate the code divides 0 by 0 and gets NaN. The model keeps that as `None` and does not substitute principal / n.
- The code pushes one point onto each chart series every year, so the two series always have the same length. The model proves that.

## Model

| member | source | states |
|---|---|---|
| Loan.MonthlyRate | calculator.js:49-51 | The monthly rate times 1200 is the annual percentage; it is positive exactly when the annual rate is. |
| Loan.Repayment | calculator.js:53-57 | The repayment is NaN/Infinity (None) at a zero rate and for a zero term, and a number for any positive rate and a term of at least one year. |
| Loan.RepaymentSolvesAnnuity | calculator.js:53-57 | For a positive rate and at least one year, p * (1 - (1 + r)^-n) = principal * r; p is positive for a positive principal and at least the first month's interest for a non-negative one. |
| Loan.Amortize | calculator.js:101-104 | The unclamped balance of the first time-saved loop never rises above the principal when the rate is non-negative and the payment covers at least the principal's first month of interest. |
| Loan.AmortizeClosedForm | calculator.js:103 | After k unclamped months the balance satisfies b_k * r = principal * r * X^k - p * (X^k - 1), with X = 1 + r. |
| Loan.AnnuityBalance | calculator.js:103 | Under the annuity equation, b_k * r * X^n = p * (X^n - X^k). |
| Loan.AnnuityEndsAtZero | calculator.js:103 | Under the annuity equation the unclamped balance is exactly zero after n months. |
| Loan.AnnuityPositiveBefore | calculator.js:103 | Under the annuity equation with a positive payment the unclamped balance is positive in every month before the n-th. |
| Loan.AnnuityPaysOff | calculator.js:53-57 | The minimum repayment brings the unclamped balance to exactly zero after termYears * 12 months, and for a positive principal keeps it positive in every earlier month. |
| Loan.ClampAtZero | calculator.js:172-173 | The clamped balance is either zero or the unclamped one: non-negative, never below the unclamped one, and unchanged when that is already non-negative. |
| Repay.MonthInterest | calculator.js:67-70 | A balance that is not positive accrues no interest; a non-negative balance at a non-negative rate accrues a non-negative amount. |
| Repay.ExtraTaken | calculator.js:72-76 | No extra is taken before the start month or when the extra is not positive; otherwise the amount taken is the extra or everything owed, whichever is less, and so never more than is owed. |
| Repay.RepayMonth | calculator.js:66-80 | One month advances the month by one and conserves money: the new balance plus the total paid equals the old balance plus the old total plus the month's interest. With non-negative inputs the balance stays non-negative and the total never falls. |
| Repay.RepayFrom | calculator.js:66-83 | While months remain the loop makes at least one pass, whatever is owed, because the balance is tested only at the end of the body; it never runs past month n, and it stops before month n only in a month that ends with nothing owed. |
| Repay.Ledger | calculator.js:65-83 | After k passes of the loop body the month has advanced by k; from a non-negative balance at a non-negative rate and payment the balance stays non-negative and the total paid never falls. |
| Repay.RepayFromIsFirstExit | calculator.js:66-83 | The loop stops in the first month that ends with nothing owed, or after month n: what it returns is the month-by-month ledger after m months, and every earlier month ended with a positive balance. |
| Repay.InterestFrom | calculator.js:66-83 | The interest accrued over the loop is non-negative for non-negative inputs. |
| Repay.RepayFromConserves | calculator.js:66-85 | At loop exit the total paid plus the balance equals the starting balance plus the interest accrued; with non-negative inputs the balance is non-negative and the total did not decrease. |
| Repay.TotalRepaid | calculator.js:85 | With non-negative inputs the total returned is non-negative and at most the principal plus the interest added: the capped payments never overpay. |
| Repay.PayMonth | calculator.js:67-80 | The loop body, statement by statement, computes one month of the ledger. |
| Repay.TotalRepayment | calculator.js:59-86 | The for loop with its break returns the total paid by the ledger simulation. |
| Repay.RunConserves | calculator.js:59-86 | For the form's inputs, totalRepayment plus the final balance equals the principal plus all interest added; with non-negative inputs both are non-negative. |
| Repay.InterestSavedWith | calculator.js:88-93 | The interest saved is the full-term payments p * n minus the total actually paid: the principal cancels. |
| Repay.InterestSaved | calculator.js:88-93 | The interest saved is NaN (None) exactly when the minimum repayment is. |
| Repay.SavedFor | calculator.js:88-93 | For a numeric repayment the saving is p * n minus the total paid; a NaN repayment gives a NaN saving. |
| Repay.ExtraIgnoredUnlessStarted | calculator.js:72 | An extra that is not positive, or that starts at or after month n, leaves the ledger and its interest exactly as with no extra. |
| Repay.MonthMonotone | calculator.js:67-80 | A month that starts from a smaller balance, with at least as much extra started no later, accrues no more interest and ends owing no more. |
| Repay.RunMonotone | calculator.js:66-83 | The same ordering holds for the whole loop: the final balance and the interest accrued are no larger. |
| Repay.BaselineFollowsAmortize | calculator.js:66-83 | Without extra, a balance that follows the unclamped recurrence, stays positive and reaches exactly zero at month n is paid off at month n with one minimum payment per remaining month. |
| Repay.PaidOffAtTerm | calculator.js:66-83 | From the principal, with no extra in effect, such a payment leaves nothing owed after exactly n months, having paid n * p. |
| Repay.PaidInFullWithoutExtra | calculator.js:59-86 | For a positive principal and rate, at least one year, and no extra in effect, the ledger runs the full term, ends owing nothing and has paid exactly n minimum repayments. |
| Repay.MinimumPaymentsCoverPrincipal | calculator.js:88-93 | The full-term minimum repayments p * n add up to at least the principal. |
| Repay.TotalCoversPrincipal | calculator.js:59-86 | A ledger run that ends owing nothing has paid at least the principal. |
| Repay.NoExtraSavesNothing | calculator.js:88-93 | When the extra is not positive, or starts after the term, the interest saved is exactly zero. |
| Repay.MoreExtraSavesMore | calculator.js:88-93 | A non-negative extra saves non-negative interest, and a larger extra or an earlier start saves at least as much. |
| Repay.TotalsOrdered | calculator.js:59-86 | Against the full-term payments p * n, the total paid with a non-negative extra is no larger, and with more extra started no later it is no larger still. |
| Repay.RunsOrdered | calculator.js:59-86 | The same ordering for any non-negative payment whose run without extra pays n payments and ends owing nothing. |
| Repay.SavingsOrdered | calculator.js:66-83 | Against a baseline that pays n payments and ends owing nothing, the savings p * n - paid are non-negative and grow with more extra started no later. |
| Repay.SavedIsWith | calculator.js:88-93 | When the repayment is the number p, the saving is p * n minus the total paid with p. |
| Repay.PaidLess | calculator.js:66-83 | Of two runs from the principal, if the one with less extra (started no earlier) ends owing nothing, so does the other, which pays no more in total. |
| TimeSaved.MonthsWithoutExtra | calculator.js:102-106 | The first counter never passes the term and stops at once when nothing is owed or the term is over. |
| TimeSaved.ExtraStep | calculator.js:112-116 | A month of the second loop leaves a non-negative balance. |
| TimeSaved.MonthsWithExtra | calculator.js:108-118 | The second counter never passes the term, and returns its starting month when nothing is owed or the term is over. |
| TimeSaved.ExtraBalance | calculator.js:110-118 | After at least one pass of the second loop's body the clamped balance is non-negative, whatever the inputs. |
| TimeSaved.ExtraCountIsFirstPayoff | calculator.js:108-118 | The second counter stops at the first month whose clamped balance is zero, or at n: every month before it has a positive balance. |
| TimeSaved.TimeSaved | calculator.js:95-120 | The months saved lie between -n and n. |
| TimeSaved.CalculateTimeSaved | calculator.js:95-120 | The two while loops return the first count minus the second. |
| TimeSaved.CountWithoutExtra | calculator.js:99-106 | The first while loop counts the months of the unclamped minimum-payment run. |
| TimeSaved.CountWithExtra | calculator.js:108-118 | The second while loop counts the months of the clamped run with extra. |
| TimeSaved.ExtraMonth | calculator.js:112-117 | The second loop's body, statement by statement, computes one month of that run. |
| TimeSaved.BaselineCountIsFirstPayoff | calculator.js:102-106 | The first count is the first month whose unclamped balance is not positive, or n if there is none; every earlier balance is positive. |
| TimeSaved.BaselineRunsFullTerm | calculator.js:102-106 | With the minimum repayment, a positive principal and rate and at least one year, the first count is exactly the term in months. |
| TimeSaved.ExtraIgnoredWhenAbsent | calculator.js:108-118 | A zero extra, or one starting after the term, makes the second count equal to the first: the clamp hides only balances that stop both loops. |
| TimeSaved.ExtraStepMonotone | calculator.js:112-116 | One month of the second loop is monotone: a smaller balance, more non-negative extra or an earlier start ends no higher. |
| TimeSaved.ExtraRunMonotone | calculator.js:110-118 | A smaller balance, more non-negative extra or an earlier start never takes more months. |
| TimeSaved.TimeSavedBounds | calculator.js:95-120 | With a non-negative extra and rate, the months saved lie between 0 and the term. |
| TimeSaved.TimeSavedMonotone | calculator.js:95-120 | More extra, or extra started earlier, saves at least as many months. |
| TimeSaved.NoTimeSavedWithoutExtra | calculator.js:95-120 | A zero extra, or one starting after the term, saves no months. |
| Duration.SplitMonths | calculator.js:132-133 | yearsSaved is the floor of t / 12 and monthsSaved has the sign of t with magnitude below 12. For t >= 0 they recombine to t, with 0 <= monthsSaved < 12. |
| Duration.NegativeSplitExample | calculator.js:132-133 | A count of -5 splits into -1 years and -5 months, because the floor and the truncating remainder mix. |
| Duration.TruncRem12 | calculator.js:133 | JavaScript's `%` by 12: the remainder has the sign of the dividend, is below 12 in magnitude, and differs from the dividend by a multiple of 12. |
| Duration.UnitWord | calculator.js:147 | The unit is singular exactly when the count is 1, and plural otherwise, including for 0. |
| Duration.DurationText | calculator.js:147 | For non-negative counts with fewer than 12 months the label reads back as years * 12 + months. |
| Duration.TextReadsBack | calculator.js:147 | The label built from non-negative years and fewer than 12 non-negative months reads back as years * 12 + months. |
| Duration.ReadCountOfShow | calculator.js:147 | A count rendered with its unit reads back as that count, followed by the rest of the text. |
| Duration.ReadBack | calculator.js:147 | The text for y years and m months, with m below 12, reads back as y * 12 + m months. |
| Duration.DurationTextRoundTrip | calculator.js:132-147 | For a non-negative count the "N years and M months" text reads back as exactly that count, with the plural rule respected. |
| Duration.ZeroText | calculator.js:147 | Nothing saved reads "0 years and 0 months". |
| BalanceChart.MonthEnd | calculator.js:169-173 | A chart month leaves a non-negative balance. |
| BalanceChart.ClampedMonths | calculator.js:167-174 | A year of chart months leaves a non-negative balance. |
| BalanceChart.YearRepayment | calculator.js:168 | The with-extra repayment is the minimum before year startAfterYears and the minimum plus the extra from that year on. |
| BalanceChart.YearRows | calculator.js:166-180 | The outer loop pushes at least one row and at most one row per remaining year. |
| BalanceChart.Points | calculator.js:176-177 | One point is pushed per row. |
| BalanceChart.ChartOf | calculator.js:163-177 | Both series hold the starting point plus one point per row. |
| BalanceChart.Series | calculator.js:160-182 | The two series have equal length, between 2 and termYears + 2, and both start at (0, principal). |
| BalanceChart.LoanBalance | calculator.js:152-183 | The chart has numbers when the minimum repayment does, and also for a zero term with a positive principal times rate: the repayment is then +Infinity, and both series are (0, principal), (1, 0). |
| BalanceChart.CalculateLoanBalance | calculator.js:152-183 | The nested loops with their break build exactly the two series of `Series`. |
| BalanceChart.BalanceLoops | calculator.js:166-180 | The outer loop with its early break builds the starting point and then one point per row. |
| BalanceChart.ChartYearPass | calculator.js:167-179 | One year extends both series by one point, and the break fires exactly when both balances are zero. |
| BalanceChart.ChartYearLoop | calculator.js:167-174 | The inner loop takes both balances through one year of chart months. |
| BalanceChart.RunYear | calculator.js:167-174 | The month loop from 1 to 12 applies one clamped month per pass. |
| BalanceChart.YearRowsShape | calculator.js:166-180 | The rows have consecutive x values from 1. No row before the last has both balances at zero. The loop ends early only after such a row. With a clamping step every balance is non-negative. |
| BalanceChart.YearRowsOrdered | calculator.js:166-180 | If a year keeps the with-extra balance at or below the other, every row does. |
| BalanceChart.ClampedMonthsMonotone | calculator.js:167-174 | A smaller balance with a larger repayment stays no larger over any number of chart months. |
| BalanceChart.MonthEndMonotone | calculator.js:169-173 | A smaller balance with a larger repayment stays no larger over one chart month. |
| BalanceChart.ChartYearFacts | calculator.js:167-174 | A chart year clamps both balances; with a non-negative extra and rate it keeps the with-extra balance at or below the other. |
| BalanceChart.SeriesShape | calculator.js:160-182 | The x values run 0, 1, 2, ... and every balance after the first is non-negative. Building stops before termYears + 1 points only right after the first year that leaves both balances at zero. |
| BalanceChart.ChartShape | calculator.js:163-177 | The row facts carry over to the two series of points. |
| BalanceChart.WithExtraBelowWithout | calculator.js:160-182 | With a non-negative extra and rate, each with-extra point lies at or below the matching point without extra. |
| BalanceChart.MonthEndShrinks | calculator.js:169-173 | A month does not raise a balance between zero and the principal when the repayment covers a month's interest on the principal. |
| BalanceChart.ClampedMonthsShrink | calculator.js:167-174 | The same for any number of months: the balance stays between zero and where it started. |
| BalanceChart.ChartYearShrinks | calculator.js:167-174 | With a non-negative rate and extra, a chart year lowers or keeps both balances while they lie between zero and the principal. |
| BalanceChart.YearRowsDescend | calculator.js:166-180 | If each year lowers both balances, every pushed row is at or below the one before. |
| BalanceChart.SeriesNonIncreasing | calculator.js:152-183 | Both series are non-increasing when the rate and the extra are non-negative and the repayment covers the first month's interest. |
| BalanceChart.ClampedFollowsAmortize | calculator.js:169-173 | While the unclamped balance stays non-negative, the clamped chart months follow it exactly. |
| BalanceChart.RowsReachZero | calculator.js:166-180 | With the balance without extra on the annuity schedule, the loop pushes one row for each remaining year and stops at the first row where both balances are zero. |
| BalanceChart.ChartPaysOff | calculator.js:152-183 | With the minimum repayment, a positive principal and rate and a non-negative extra, both series are non-increasing, have termYears + 1 points, and end at zero at x = termYears. |
| Calculator.Calculate | calculator.js:129-147 | The figures are NaN (None) exactly when the minimum repayment is. The increased repayment exceeds the minimum by the extra. yearsSaved is the floor of timeSaved / 12. |
| Calculator.ExecuteCalculations | calculator.js:122-150 | Running the calculator's functions and loops gives exactly the figures of `Calculate`. |
| Calculator.Results | calculator.js:129-147 | Once the repayment is a number, the total repayment, interest saved, time saved and text are those of `Calculate`. |
| Calculator.CalculateSound | calculator.js:129-147 | For a positive principal and rate, at least one year and a non-negative extra: the minimum repayment is positive and pays the loan off over the term. The interest saved is non-negative, the months saved lie within the term, and the text reads back as exactly those months. |
| Calculator.NothingSavedWithoutExtra | calculator.js:129-147 | Without an extra in effect, the interest saved and the months saved are zero and the text reads "0 years and 0 months". |
| Decimal.Show | inputFormatting.js:25 | A rendered number is a non-empty digit string with no leading zero unless it is "0". |
| Decimal.Value | inputFormatting.js:22 | A string of k digits denotes a number below 10^k. |
| Decimal.ValueOfShow | inputFormatting.js:22-25 | Reading a rendered number gives the number back. |
| Decimal.ShowOfValue | inputFormatting.js:22-25 | Rendering the value of a digit string without a leading zero gives the string back. |
| Decimal.ShowInt | calculator.js:147 | A non-negative count prints as a digit string whose value is the count; a negative count prints as a minus sign followed by the digits of its magnitude. |
| Decimal.LeadingZeroValue | inputFormatting.js:22 | A leading zero does not change the value of a digit string. |
| Decimal.LeadingDigits | calculator.js:147 | The leading digit run of a text, as the reader of the time-saved label takes each count, consists of digits and is followed by a non-digit or the end. |
| Decimal.LeadingDigitsOfConcat | inputFormatting.js:22 | A digit string followed by a non-digit has exactly that string as its leading digit run. |
| YearsField.Digits | inputFormatting.js:22 | The filter keeps only digits. It is empty exactly when the field has no digit, and leaves a text made only of digits unchanged. |
| YearsField.DigitsOfConcat | inputFormatting.js:22 | Filtering distributes over concatenation. |
| YearsField.ParseYears | inputFormatting.js:22-23 | The parse is NaN (None) exactly when the field contains no digit. |
| YearsField.YearUnit | inputFormatting.js:24-27 | The unit is " years" exactly for numbers above 1, and " year" for 0 and 1. |
| YearsField.FormatYears | inputFormatting.js:21-31 | A field with no digit is left as it is. Otherwise the output is exactly the parsed number in decimal followed by " years" when it is above 1 and " year" otherwise, so it ends in 's' exactly when the number is above 1. |
| YearsField.ParseFormatYears | inputFormatting.js:21-31 | The formatted field parses to the same value as the original. |
| YearsField.FormatYearsIdempotent | inputFormatting.js:21-31 | Formatting an already formatted field changes nothing. |
| YearsField.FormatYearsCanonical | inputFormatting.js:22-25 | The number written is the canonical decimal of the parsed value, with no leading zero unless it is 0. |
| YearsField.NonDigitIgnored | inputFormatting.js:22 | Inserting a non-digit anywhere, '-' and '.' included, leaves the output unchanged once the field has a digit. |
| YearsField.LeadingZeroDropped | inputFormatting.js:22-25 | A leading zero is dropped: the field formats the same with or without it, and a field whose only digit is that zero becomes "0 year". |
| YearsField.ZeroIsSingular | inputFormatting.js:24-27 | "0" becomes "0 year". |
| YearsField.PreserveValue | inputFormatting.js:39-45 | The formatter's output is kept whenever it is non-empty, and the original text is put back when the formatter empties the field. The result is empty only if the original field was empty too. |
| YearsField.PreserveYearsIsFormatYears | inputFormatting.js:39-45 | For the years formatter the restore never fires: the wrapper equals `formatYears`. |

## Left out

- DOM reads and writes, event listeners, the modal dialogs and the screenshot export (calculator.js:1-43, inputFormatting.js:33-60) are I/O. The engine takes the five form values as parameters, and the formatters take and return the field text.
- `cleanInput` (calculator.js:45-47) relies on `parseFloat` prefix parsing over doubles. The model takes already parsed numbers, and the two year counts are whole numbers, whereas the page accepts fractional and negative years.
- `formatCurrency`, `formatPercentage` and the `Intl.NumberFormat` currency output (inputFormatting.js:2-19, calculator.js:139-148) come from a locale library and JavaScript's number-to-string rendering.
- The Chart.js configuration and its callbacks (`updateChart`, calculator.js:185 on) are library glue.
- IEEE-754 rounding is not modelled. Money is exact, so the facts that need exact arithmetic (for example, the balance reaching exactly zero at the end of the term) hold in the model but only approximately in the browser.
- NaN and Infinity are modelled only as `None` where the repayment itself is NaN or Infinity, and, in the chart, as the +Infinity repayment of a zero term. NaN propagation inside the loops is not modelled.
- `parseInt` precision loss on very long digit strings is not modelled; the parsed value is an exact `nat`. Nor is the exponent form that `${value}` uses for values of 1e21 and above ("1e+21 years"): on such input the browser's reformatting is neither canonical nor idempotent, unlike what `YearsField.FormatYearsIdempotent` proves for the model.
- Calculator.Calculate: returns `None` as a whole when the minimum repayment is NaN or Infinity. The page still runs `calculateTimeSaved` then, and shows "0 years and 0 months": with a positive principal and a term of at least one year, each of its two loops makes exactly one pass on a NaN repayment, after which `NaN > 0` is false and ends it, so both counters are 1. This one-pass behaviour is specific to NaN; with a zero or negative term the loops make no pass at all. For a zero term with a positive principal and rate the repayment is +Infinity: the page shows "$∞" and "0 years and 0 months".
- BalanceChart.LoanBalance: for a zero term with a negative principal times rate the repayment is -Infinity and the page draws the points (0, principal), (1, Infinity); the model returns `None` there, because a `real` has no infinity.
- Loan.Repayment: its contract says only when the repayment is a number. What that number is comes from `Loan.RepaymentSolvesAnnuity`, which assumes a positive rate and at least one year. For a negative rate it is only computed, not characterised.
- Duration.DurationTextRoundTrip: the round trip is proved for non-negative counts only. A negative count prints as e.g. "-1 years and -5 months" (see `Duration.NegativeSplitExample`), which the reader does not accept.
- Duration.DurationText: its read-back is stated only for non-negative counts with fewer than 12 months, the only ones `SplitMonths` produces from a non-negative count; a negative count prints with minus signs that the reader rejects.
- BalanceChart.ChartYearLoop: runs the twelve months of the with-extra balance, then the twelve months of the other, instead of interleaving them month by month. The two balances never read each other, so the results are the same.
- BalanceChart.BalanceLoops: takes the number of months per year as a parameter. `BalanceChart.CalculateLoanBalance` fixes it at 12, as the page does.

=== FILE: balance_chart.dfy ===
/**
  `calculateLoanBalance`: two year-indexed balance series for the chart, one with the extra
  payment and one without. Each month both balances compound and lose a payment and are
  clamped at zero; the extra is added to the payment from the year `startAfterYears` on (a
  year test, unlike the month tests of the other simulations). A point is pushed at the end
  of each year, for years 0 to termYears, and building stops after the first year in which
  both balances are zero.

  The outer loop is stated over any year step (what twelve months do to the two balances);
  its shape does not depend on the arithmetic, which `ChartYear` supplies.
 */
module BalanceChart {
  import opened Wrappers
  import opened Loan
  import opened Seqs

  datatype Point = Point(x: nat, y: real)

  /** The two series the chart draws. */
  datatype Chart = Chart(withExtra: seq<Point>, withoutExtra: seq<Point>)

  const MonthsPerYear: nat := 12

  /** `Math.max(0, balance * (1 + monthlyRate) - repayment)`. */
  function MonthEnd(balance: real, rate: real, repayment: real): (b: real)
    ensures b >= 0.0
  {
    ClampAtZero(balance * (1.0 + rate) - repayment)
  }

  /** The balance after `months` clamped months of the same repayment. */
  function ClampedMonths(balance: real, rate: real, repayment: real, months: nat): (b: real)
    decreases months
    ensures months > 0 || balance >= 0.0 ==> b >= 0.0
  {
    if months == 0 then balance
    else ClampedMonths(MonthEnd(balance, rate, repayment), rate, repayment, months - 1)
  }

  /** The with-extra repayment in a given year: the extra counts from `startAfterYears` on. */
  function YearRepayment(inputs: LoanInputs, payment: real, year: nat): (r: real)
    ensures year < inputs.startAfterYears ==> r == payment
    ensures year >= inputs.startAfterYears ==> r == payment + inputs.extra
  {
    payment + (if year >= inputs.startAfterYears then inputs.extra else 0.0)
  }

  /** The two balances at the end of year `x - 1`, which the chart plots at x. */
  datatype Row = Row(x: nat, withExtra: real, withoutExtra: real)

  /** The test that ends the outer loop: both balances are zero. */
  predicate PaidOff(row: Row) {
    row.withExtra == 0.0 && row.withoutExtra == 0.0
  }

  /** What one year does to the (with extra, without extra) balances, given the year. */
  type YearStep = (real, real, nat) -> (real, real)

  /**
    The inner loop of `calculateLoanBalance`: a year of clamped months for each balance. The
    chart uses twelve months a year; the count is a parameter so that proofs about the loops
    do not unroll the year.
   */
  function ChartYear(inputs: LoanInputs, payment: real, monthsPerYear: nat): YearStep {
    (withExtra: real, withoutExtra: real, year: nat) =>
      (ClampedMonths(withExtra, inputs.Rate(), YearRepayment(inputs, payment, year), monthsPerYear),
       ClampedMonths(withoutExtra, inputs.Rate(), payment, monthsPerYear))
  }

  /**
    The rows pushed from year `year` to year `lastYear`, given the two balances at the start
    of `year`, stopping after the first year that leaves both balances at zero.
   */
  function YearRows(withExtra: real, withoutExtra: real, year: nat, lastYear: nat, step: YearStep): (rows: seq<Row>)
    requires year <= lastYear + 1
    decreases lastYear + 1 - year
    ensures |rows| <= lastYear + 1 - year
    ensures year <= lastYear ==> |rows| >= 1
  {
    if year > lastYear then []
    else
      var next := step(withExtra, withoutExtra, year);
      var row := Row(year + 1, next.0, next.1);
      if PaidOff(row) then [row] else [row] + YearRows(next.0, next.1, year + 1, lastYear, step)
  }

  /** The balance a row plots on one of the two lines. */
  function Plotted(row: Row, withExtra: bool): real {
    if withExtra then row.withExtra else row.withoutExtra
  }

  /** The plotted points of one series. */
  function Points(rows: seq<Row>, withExtra: bool): (ps: seq<Point>)
    ensures |ps| == |rows|
  {
    seq(|rows|, i requires 0 <= i < |rows| => Point(rows[i].x, Plotted(rows[i], withExtra)))
  }

  /** The rows of the chart for the given inputs, minimum repayment and months per year. */
  function ChartRows(inputs: LoanInputs, payment: real, monthsPerYear: nat): seq<Row> {
    YearRows(inputs.principal, inputs.principal, 0, inputs.termYears, ChartYear(inputs, payment, monthsPerYear))
  }

  /** Both series: the starting point (0, principal), then the yearly points. */
  function Series(inputs: LoanInputs, payment: real): (c: Chart)
    ensures |c.withExtra| == |c.withoutExtra|
    ensures 2 <= |c.withExtra| <= inputs.termYears + 2
    ensures c.withExtra[0] == Point(0, inputs.principal) && c.withoutExtra[0] == Point(0, inputs.principal)
  {
    ChartOf(inputs.principal, ChartRows(inputs, payment, MonthsPerYear))
  }

  /** The chart drawn from a starting balance and the rows pushed after it. */
  function ChartOf(principal: real, rows: seq<Row>): (c: Chart)
    ensures |c.withExtra| == |c.withoutExtra| == |rows| + 1
  {
    Chart([Point(0, principal)] + Points(rows, true), [Point(0, principal)] + Points(rows, false))
  }

  /**
    A zero term with a positive principal * rate: the code divides that by 1 - (1 + r)^0 = 0
    and gets +Infinity for the repayment.
   */
  predicate InfiniteRepayment(inputs: LoanInputs) {
    inputs.termYears == 0 && inputs.principal * inputs.Rate() > 0.0
  }

  /** A year whose repayment exceeds any balance: every month clamps both balances to zero. */
  function ClearedYear(): YearStep {
    (withExtra: real, withoutExtra: real, year: nat) => (0.0, 0.0)
  }

  /**
    `calculateLoanBalance`. With a +Infinity repayment the first month clamps both balances
    to zero, so the chart is still drawn; None where the repayment is NaN or -Infinity.
   */
  function LoanBalance(inputs: LoanInputs): (c: Option<Chart>)
    ensures c.Some? <==> Repayment(inputs.principal, inputs.annualRate, inputs.termYears).Some? || InfiniteRepayment(inputs)
    ensures InfiniteRepayment(inputs) ==>
      c.value.withExtra == c.value.withoutExtra == [Point(0, inputs.principal), Point(1, 0.0)]
  {
    var payment := Repayment(inputs.principal, inputs.annualRate, inputs.termYears);
    if payment.Some? then Some(Series(inputs, payment.value))
    else if InfiniteRepayment(inputs) then
      Some(ChartOf(inputs.principal, YearRows(inputs.principal, inputs.principal, 0, inputs.termYears, ClearedYear())))
    else None
  }

  /** The nested loops of `calculateLoanBalance`, given the minimum repayment. */
  method CalculateLoanBalance(inputs: LoanInputs, payment: real)
    returns (dataWithExtra: seq<Point>, dataWithoutExtra: seq<Point>)
    ensures Chart(dataWithExtra, dataWithoutExtra) == Series(inputs, payment)
  {
    dataWithExtra, dataWithoutExtra := BalanceLoops(inputs, payment, MonthsPerYear);
  }

  /** The outer loop of `calculateLoanBalance`, for any number of months per year. */
  method BalanceLoops(inputs: LoanInputs, payment: real, monthsPerYear: nat)
    returns (dataWithExtra: seq<Point>, dataWithoutExtra: seq<Point>)
    ensures Chart(dataWithExtra, dataWithoutExtra) == ChartOf(inputs.principal, ChartRows(inputs, payment, monthsPerYear))
  {
    var balanceWithExtra := inputs.principal;
    var balanceWithoutExtra := inputs.principal;
    dataWithExtra := [Point(0, balanceWithExtra)];
    dataWithoutExtra := [Point(0, balanceWithoutExtra)];
    ghost var all := ChartRows(inputs, payment, monthsPerYear);
    ghost var done: seq<Row> := [];
    var year: nat := 0;
    while year <= inputs.termYears
      invariant year <= inputs.termYears + 1
      invariant done + YearRows(balanceWithExtra, balanceWithoutExtra, year, inputs.termYears,
                                ChartYear(inputs, payment, monthsPerYear))
             == all
      invariant Chart(dataWithExtra, dataWithoutExtra) == ChartOf(inputs.principal, done)
      decreases inputs.termYears + 1 - year
    {
      var paidOff;
      balanceWithExtra, balanceWithoutExtra, dataWithExtra, dataWithoutExtra, paidOff, done :=
        ChartYearPass(inputs, payment, monthsPerYear, balanceWithExtra, balanceWithoutExtra, year,
                      dataWithExtra, dataWithoutExtra, done, all);
      if paidOff {
        break;
      }
      year := year + 1;
    }
  }

  /**
    One pass of the outer loop's body: twelve months for each balance, one point pushed onto
    each series, and whether both balances are now zero (the loop's `break`).
   */
  method ChartYearPass(inputs: LoanInputs, payment: real, monthsPerYear: nat, withExtra: real, withoutExtra: real, year: nat,
                       dataWithExtra: seq<Point>, dataWithoutExtra: seq<Point>,
                       ghost done: seq<Row>, ghost all: seq<Row>)
    returns (nextWithExtra: real, nextWithoutExtra: real, pushedWithExtra: seq<Point>,
             pushedWithoutExtra: seq<Point>, paidOff: bool, ghost pushed: seq<Row>)
    requires year <= inputs.termYears
    requires done + YearRows(withExtra, withoutExtra, year, inputs.termYears, ChartYear(inputs, payment, monthsPerYear))
          == all
    requires Chart(dataWithExtra, dataWithoutExtra) == ChartOf(inputs.principal, done)
    ensures Chart(pushedWithExtra, pushedWithoutExtra) == ChartOf(inputs.principal, pushed)
    ensures paidOff <==> nextWithExtra == 0.0 && nextWithoutExtra == 0.0
    ensures paidOff ==> pushed == all
    ensures !paidOff ==>
      pushed + YearRows(nextWithExtra, nextWithoutExtra, year + 1, inputs.termYears,
                        ChartYear(inputs, payment, monthsPerYear)) == all
  {
    nextWithExtra, nextWithoutExtra := ChartYearLoop(inputs, payment, monthsPerYear, withExtra, withoutExtra, year);
    var row := Row(year + 1, nextWithExtra, nextWithoutExtra);
    AdvanceRows(done, withExtra, withoutExtra, year, inputs.termYears, ChartYear(inputs, payment, monthsPerYear), all);
    PushedPoints(inputs.principal, done, row);
    pushed := done + [row];
    pushedWithExtra := dataWithExtra + [Point(year + 1, nextWithExtra)];
    pushedWithoutExtra := dataWithoutExtra + [Point(year + 1, nextWithoutExtra)];
    paidOff := nextWithExtra == 0.0 && nextWithoutExtra == 0.0;
  }

  /** The rows still to come lose their first row to the rows already pushed. */
  lemma AdvanceRows(done: seq<Row>, withExtra: real, withoutExtra: real, year: nat, lastYear: nat, step: YearStep,
                    all: seq<Row>)
    requires year <= lastYear
    requires done + YearRows(withExtra, withoutExtra, year, lastYear, step) == all
    ensures var next := step(withExtra, withoutExtra, year);
      var row := Row(year + 1, next.0, next.1);
      && (PaidOff(row) ==> done + [row] == all)
      && (!PaidOff(row) ==> (done + [row]) + YearRows(next.0, next.1, year + 1, lastYear, step) == all)
  {
    var next := step(withExtra, withoutExtra, year);
    var row := Row(year + 1, next.0, next.1);
    if !PaidOff(row) {
      AppendAssoc(done, [row], YearRows(next.0, next.1, year + 1, lastYear, step));
    }
  }

  /** One pass of the outer loop's body: twelve months for each balance. */
  method ChartYearLoop(inputs: LoanInputs, payment: real, monthsPerYear: nat, withExtra: real, withoutExtra: real,
                       year: nat)
    returns (nextWithExtra: real, nextWithoutExtra: real)
    ensures (nextWithExtra, nextWithoutExtra) == ChartYear(inputs, payment, monthsPerYear)(withExtra, withoutExtra, year)
  {
    var repaymentWithExtra := YearRepayment(inputs, payment, year);
    nextWithExtra := RunYear(withExtra, inputs.Rate(), repaymentWithExtra, monthsPerYear);
    nextWithoutExtra := RunYear(withoutExtra, inputs.Rate(), payment, monthsPerYear);
  }

  /** Pushing a row's points onto both series extends them by that row. */
  lemma PushedPoints(principal: real, done: seq<Row>, row: Row)
    ensures var c := ChartOf(principal, done);
      ChartOf(principal, done + [row])
        == Chart(c.withExtra + [Point(row.x, row.withExtra)], c.withoutExtra + [Point(row.x, row.withoutExtra)])
  {
    PointsSnoc(done, row);
    AppendAssoc([Point(0, principal)], Points(done, true), [Point(row.x, row.withExtra)]);
    AppendAssoc([Point(0, principal)], Points(done, false), [Point(row.x, row.withoutExtra)]);
  }

  lemma PointsSnoc(rows: seq<Row>, row: Row)
    ensures Points(rows + [row], true) == Points(rows, true) + [Point(row.x, row.withExtra)]
    ensures Points(rows + [row], false) == Points(rows, false) + [Point(row.x, row.withoutExtra)]
  {
    var both := rows + [row];
    assert both[|rows|] == row;
    assert forall i | 0 <= i < |rows| :: both[i] == rows[i];
  }

  /** The inner loop: a year of clamped months. */
  method RunYear(balance: real, rate: real, repayment: real, monthsPerYear: nat) returns (b: real)
    ensures b == ClampedMonths(balance, rate, repayment, monthsPerYear)
  {
    b := balance;
    var month := 1;
    while month <= monthsPerYear
      invariant 1 <= month <= monthsPerYear + 1
      invariant ClampedMonths(b, rate, repayment, monthsPerYear + 1 - month)
             == ClampedMonths(balance, rate, repayment, monthsPerYear)
    {
      b := b * (1.0 + rate) - repayment;
      b := if b < 0.0 then 0.0 else b;
      month := month + 1;
    }
  }

  /**
    The shape of the rows: consecutive x values from year + 1, and the loop leaves early only
    right after a year that ends with both balances at zero. With a step that clamps, every
    balance is non-negative.
   */
  lemma {:induction false} YearRowsShape(withExtra: real, withoutExtra: real, year: nat, lastYear: nat,
                                         step: YearStep)
    requires year <= lastYear + 1
    decreases lastYear + 1 - year
    ensures var rows := YearRows(withExtra, withoutExtra, year, lastYear, step);
      && (forall i | 0 <= i < |rows| :: rows[i].x == year + 1 + i)
      && (forall i | 0 <= i < |rows| - 1 :: !PaidOff(rows[i]))
      && (0 < |rows| < lastYear + 1 - year ==> PaidOff(rows[|rows| - 1]))
    ensures (forall a, b, y :: step(a, b, y).0 >= 0.0 && step(a, b, y).1 >= 0.0) ==>
      var rows := YearRows(withExtra, withoutExtra, year, lastYear, step);
      forall i | 0 <= i < |rows| :: rows[i].withExtra >= 0.0 && rows[i].withoutExtra >= 0.0
  {
    if year <= lastYear {
      var next := step(withExtra, withoutExtra, year);
      var row := Row(year + 1, next.0, next.1);
      var rows := YearRows(withExtra, withoutExtra, year, lastYear, step);
      if !PaidOff(row) {
        var rest := YearRows(next.0, next.1, year + 1, lastYear, step);
        assert rows == [row] + rest;
        YearRowsShape(next.0, next.1, year + 1, lastYear, step);
        assert forall i | 1 <= i < |rows| :: rows[i] == rest[i - 1];
      } else {
        assert rows == [row];
      }
    }
  }

  /** No with-extra balance lies above the matching one without. */
  predicate Ordered(rows: seq<Row>) {
    forall i | 0 <= i < |rows| :: rows[i].withExtra <= rows[i].withoutExtra
  }

  /** Every with-extra balance is at most the matching one without, if the step keeps that order. */
  lemma {:induction false} YearRowsOrdered(withExtra: real, withoutExtra: real, year: nat, lastYear: nat,
                                           step: YearStep)
    requires year <= lastYear + 1 && withExtra <= withoutExtra
    requires forall a, b, y | a <= b :: step(a, b, y).0 <= step(a, b, y).1
    decreases lastYear + 1 - year
    ensures Ordered(YearRows(withExtra, withoutExtra, year, lastYear, step))
  {
    if year <= lastYear {
      var next := step(withExtra, withoutExtra, year);
      var row := Row(year + 1, next.0, next.1);
      var rows := YearRows(withExtra, withoutExtra, year, lastYear, step);
      assert next.0 <= next.1;
      if !PaidOff(row) {
        YearRowsOrdered(next.0, next.1, year + 1, lastYear, step);
        ConsOrdered(row, YearRows(next.0, next.1, year + 1, lastYear, step));
      } else {
        assert rows == [row];
      }
    }
  }

  lemma ConsOrdered(row: Row, rest: seq<Row>)
    requires row.withExtra <= row.withoutExtra && Ordered(rest)
    ensures Ordered([row] + rest)
  {
    var rows := [row] + rest;
    forall i | 0 <= i < |rows|
      ensures rows[i].withExtra <= rows[i].withoutExtra
    {
      if i > 0 {
        assert rows[i] == rest[i - 1];
      }
    }
  }

  /** Clamped months are monotone: a smaller balance and a larger repayment stay smaller. */
  lemma {:induction false} ClampedMonthsMonotone(lo: real, hi: real, rate: real, repayLo: real, repayHi: real,
                                                 months: nat)
    requires lo <= hi && repayHi <= repayLo && 1.0 + rate >= 0.0
    decreases months
    ensures ClampedMonths(lo, rate, repayLo, months) <= ClampedMonths(hi, rate, repayHi, months)
  {
    if months > 0 {
      var nextLo := MonthEnd(lo, rate, repayLo);
      var nextHi := MonthEnd(hi, rate, repayHi);
      MonthEndMonotone(lo, hi, rate, repayLo, repayHi);
      ClampedMonthsMonotone(nextLo, nextHi, rate, repayLo, repayHi, months - 1);
    }
  }

  lemma MonthEndMonotone(lo: real, hi: real, rate: real, repayLo: real, repayHi: real)
    requires lo <= hi && repayHi <= repayLo && 1.0 + rate >= 0.0
    ensures MonthEnd(lo, rate, repayLo) <= MonthEnd(hi, rate, repayHi)
  {
    GrowMonotone(lo, hi, 1.0 + rate, repayLo, repayHi);
    ClampMonotone(lo * (1.0 + rate) - repayLo, hi * (1.0 + rate) - repayHi);
  }

  /** A year of the chart clamps both balances, and with a non-negative extra keeps their order. */
  lemma ChartYearFacts(inputs: LoanInputs, payment: real, monthsPerYear: nat)
    requires monthsPerYear >= 1
    ensures var step := ChartYear(inputs, payment, monthsPerYear);
      forall a, b, y :: step(a, b, y).0 >= 0.0 && step(a, b, y).1 >= 0.0
    ensures var step := ChartYear(inputs, payment, monthsPerYear);
      inputs.extra >= 0.0 && inputs.annualRate >= 0.0 ==>
      forall a, b, y | a <= b :: step(a, b, y).0 <= step(a, b, y).1
  {
    var step := ChartYear(inputs, payment, monthsPerYear);
    if inputs.extra >= 0.0 && inputs.annualRate >= 0.0 {
      forall a, b, y | a <= b
        ensures step(a, b, y).0 <= step(a, b, y).1
      {
        ClampedMonthsMonotone(a, b, inputs.Rate(), YearRepayment(inputs, payment, y), payment, monthsPerYear);
      }
    }
  }

  /**
    The shape of both series: x values 0, 1, 2, ..., every balance after the first clamped at
    zero, and building stops before termYears + 1 only right after the first year that ends
    with both balances at zero.
   */
  lemma SeriesShape(inputs: LoanInputs, payment: real)
    ensures var c := Series(inputs, payment);
      && (forall i | 0 <= i < |c.withExtra| :: c.withExtra[i].x == i && c.withoutExtra[i].x == i)
      && (forall i | 1 <= i < |c.withExtra| :: c.withExtra[i].y >= 0.0 && c.withoutExtra[i].y >= 0.0)
      && (forall i | 1 <= i < |c.withExtra| - 1 :: c.withExtra[i].y != 0.0 || c.withoutExtra[i].y != 0.0)
      && (|c.withExtra| < inputs.termYears + 2 ==>
            c.withExtra[|c.withExtra| - 1].y == 0.0 && c.withoutExtra[|c.withoutExtra| - 1].y == 0.0)
  {
    var rows := ChartRows(inputs, payment, MonthsPerYear);
    ChartYearFacts(inputs, payment, MonthsPerYear);
    YearRowsShape(inputs.principal, inputs.principal, 0, inputs.termYears, ChartYear(inputs, payment, MonthsPerYear));
    ChartShape(inputs.principal, rows, inputs.termYears);
  }

  /** The chart facts of `SeriesShape`, from the matching facts about the rows. */
  lemma ChartShape(principal: real, rows: seq<Row>, lastYear: nat)
    requires 1 <= |rows| <= lastYear + 1
    requires forall i | 0 <= i < |rows| :: rows[i].x == 1 + i
    requires forall i | 0 <= i < |rows| :: rows[i].withExtra >= 0.0 && rows[i].withoutExtra >= 0.0
    requires forall i | 0 <= i < |rows| - 1 :: !PaidOff(rows[i])
    requires |rows| < lastYear + 1 ==> PaidOff(rows[|rows| - 1])
    ensures var c := ChartOf(principal, rows);
      && (forall i | 0 <= i < |c.withExtra| :: c.withExtra[i].x == i && c.withoutExtra[i].x == i)
      && (forall i | 1 <= i < |c.withExtra| :: c.withExtra[i].y >= 0.0 && c.withoutExtra[i].y >= 0.0)
      && (forall i | 1 <= i < |c.withExtra| - 1 :: c.withExtra[i].y != 0.0 || c.withoutExtra[i].y != 0.0)
      && (|c.withExtra| < lastYear + 2 ==>
            c.withExtra[|c.withExtra| - 1].y == 0.0 && c.withoutExtra[|c.withoutExtra| - 1].y == 0.0)
  {
  }

  /** With a non-negative extra and rate, the with-extra line never lies above the other. */
  lemma WithExtraBelowWithout(inputs: LoanInputs, payment: real)
    requires inputs.extra >= 0.0 && inputs.annualRate >= 0.0
    ensures var c := Series(inputs, payment);
      forall i | 0 <= i < |c.withExtra| :: c.withExtra[i].y <= c.withoutExtra[i].y
  {
    ChartYearFacts(inputs, payment, MonthsPerYear);
    YearRowsOrdered(inputs.principal, inputs.principal, 0, inputs.termYears, ChartYear(inputs, payment, MonthsPerYear));
    PointsOrdered(ChartRows(inputs, payment, MonthsPerYear));
  }

  lemma PointsOrdered(rows: seq<Row>)
    requires Ordered(rows)
    ensures forall i | 0 <= i < |rows| :: Points(rows, true)[i].y <= Points(rows, false)[i].y
  {
  }

  /** A series whose balance never rises from one point to the next. */
  predicate NonIncreasing(ps: seq<Point>) {
    forall i | 1 <= i < |ps| :: ps[i].y <= ps[i - 1].y
  }

  /** Rows whose two balances never rise, starting from the given balances. */
  predicate Descends(withExtra: real, withoutExtra: real, rows: seq<Row>) {
    && (|rows| > 0 ==> rows[0].withExtra <= withExtra && rows[0].withoutExtra <= withoutExtra)
    && (forall i | 1 <= i < |rows| ::
          rows[i].withExtra <= rows[i - 1].withExtra && rows[i].withoutExtra <= rows[i - 1].withoutExtra)
  }

  /**
    A clamped month does not raise a balance between zero and `cap` when the repayment covers
    a month's interest on `cap`.
   */
  lemma MonthEndShrinks(balance: real, rate: real, repayment: real, cap: real)
    requires 0.0 <= balance <= cap && rate >= 0.0 && repayment >= cap * rate
    ensures MonthEnd(balance, rate, repayment) <= balance
  {
    MulMonotone(balance, cap, rate);
    assert balance * (1.0 + rate) - repayment <= balance;
  }

  lemma {:induction false} ClampedMonthsShrink(balance: real, rate: real, repayment: real, cap: real, months: nat)
    requires 0.0 <= balance <= cap && rate >= 0.0 && repayment >= cap * rate
    decreases months
    ensures 0.0 <= ClampedMonths(balance, rate, repayment, months) <= balance
  {
    if months > 0 {
      MonthEndShrinks(balance, rate, repayment, cap);
      ClampedMonthsShrink(MonthEnd(balance, rate, repayment), rate, repayment, cap, months - 1);
    }
  }

  /**
    With a repayment that covers the first month's interest, a non-negative rate and a
    non-negative extra, a chart year lowers (or keeps) both balances while they lie between
    zero and the principal.
   */
  lemma ChartYearShrinks(inputs: LoanInputs, payment: real, monthsPerYear: nat)
    requires inputs.principal >= 0.0 && inputs.annualRate >= 0.0 && inputs.extra >= 0.0
    requires payment >= inputs.principal * inputs.Rate()
    ensures var step := ChartYear(inputs, payment, monthsPerYear);
      forall a, b, y | 0.0 <= a <= inputs.principal && 0.0 <= b <= inputs.principal ::
        0.0 <= step(a, b, y).0 <= a && 0.0 <= step(a, b, y).1 <= b
  {
    var step := ChartYear(inputs, payment, monthsPerYear);
    var r := inputs.Rate();
    assert r >= 0.0;
    forall a, b, y | 0.0 <= a <= inputs.principal && 0.0 <= b <= inputs.principal
      ensures 0.0 <= step(a, b, y).0 <= a && 0.0 <= step(a, b, y).1 <= b
    {
      var q := YearRepayment(inputs, payment, y);
      assert q >= inputs.principal * r;
      ClampedMonthsShrink(a, r, q, inputs.principal, monthsPerYear);
      ClampedMonthsShrink(b, r, payment, inputs.principal, monthsPerYear);
      assert step(a, b, y) == (ClampedMonths(a, r, q, monthsPerYear), ClampedMonths(b, r, payment, monthsPerYear));
    }
  }

  /** If each year lowers both balances within [0, cap], the rows descend. */
  lemma {:induction false} YearRowsDescend(withExtra: real, withoutExtra: real, year: nat, lastYear: nat,
                                           step: YearStep, cap: real)
    requires year <= lastYear + 1
    requires 0.0 <= withExtra <= cap && 0.0 <= withoutExtra <= cap
    requires forall a, b, y | 0.0 <= a <= cap && 0.0 <= b <= cap ::
      0.0 <= step(a, b, y).0 <= a && 0.0 <= step(a, b, y).1 <= b
    decreases lastYear + 1 - year
    ensures Descends(withExtra, withoutExtra, YearRows(withExtra, withoutExtra, year, lastYear, step))
  {
    if year <= lastYear {
      var next := step(withExtra, withoutExtra, year);
      var row := Row(year + 1, next.0, next.1);
      var rows := YearRows(withExtra, withoutExtra, year, lastYear, step);
      if !PaidOff(row) {
        var rest := YearRows(next.0, next.1, year + 1, lastYear, step);
        YearRowsDescend(next.0, next.1, year + 1, lastYear, step, cap);
        ConsDescends(withExtra, withoutExtra, row, rest);
      } else {
        assert rows == [row];
      }
    }
  }

  lemma ConsDescends(withExtra: real, withoutExtra: real, row: Row, rest: seq<Row>)
    requires row.withExtra <= withExtra && row.withoutExtra <= withoutExtra
    requires Descends(row.withExtra, row.withoutExtra, rest)
    ensures Descends(withExtra, withoutExtra, [row] + rest)
  {
    var rows := [row] + rest;
    forall i | 1 <= i < |rows|
      ensures rows[i].withExtra <= rows[i - 1].withExtra && rows[i].withoutExtra <= rows[i - 1].withoutExtra
    {
      assert rows[i] == rest[i - 1];
    }
  }

  /** Descending rows after a start at the principal draw two non-increasing series. */
  lemma ChartDescends(principal: real, rows: seq<Row>)
    requires Descends(principal, principal, rows)
    ensures NonIncreasing(ChartOf(principal, rows).withExtra) && NonIncreasing(ChartOf(principal, rows).withoutExtra)
  {
  }

  /**
    Both series are non-increasing when the rate and the extra are non-negative and the
    repayment covers the first month's interest, as the minimum repayment does.
   */
  lemma SeriesNonIncreasing(inputs: LoanInputs, payment: real)
    requires inputs.principal >= 0.0 && inputs.annualRate >= 0.0 && inputs.extra >= 0.0
    requires payment >= inputs.principal * inputs.Rate()
    ensures NonIncreasing(Series(inputs, payment).withExtra) && NonIncreasing(Series(inputs, payment).withoutExtra)
  {
    var step := ChartYear(inputs, payment, MonthsPerYear);
    ChartYearShrinks(inputs, payment, MonthsPerYear);
    YearRowsDescend(inputs.principal, inputs.principal, 0, inputs.termYears, step, inputs.principal);
    ChartDescends(inputs.principal, ChartRows(inputs, payment, MonthsPerYear));
  }

  /** While the unclamped balance stays non-negative, clamped months follow it exactly. */
  lemma {:induction false} ClampedFollowsAmortize(principal: real, rate: real, payment: real, k: nat, months: nat)
    requires forall j: nat | k < j <= k + months :: Amortize(principal, rate, payment, j) >= 0.0
    decreases months
    ensures ClampedMonths(Amortize(principal, rate, payment, k), rate, payment, months)
         == Amortize(principal, rate, payment, k + months)
  {
    if months > 0 {
      assert MonthEnd(Amortize(principal, rate, payment, k), rate, payment) == Amortize(principal, rate, payment, k + 1);
      ClampedFollowsAmortize(principal, rate, payment, k + 1, months - 1);
    }
  }

  lemma YearsBefore(year: nat, lastYear: nat, m: nat)
    requires year < lastYear
    ensures year * m + m <= lastYear * m
    ensures year + 1 < lastYear ==> year * m + m < lastYear * m || m == 0
  {
    var d: nat := lastYear - year;
    assert lastYear * m == year * m + d * m;
    assert d * m == (d - 1) * m + m;
    if year + 1 < lastYear {
      assert d * m == (d - 2) * m + m + m;
    }
  }

  /**
    From year `year` on, with the balance without extra on the annuity schedule and the
    with-extra balance between zero and it, the chart pushes one row per remaining year and
    the last row is the first that is paid off.
   */
  lemma {:induction false} RowsReachZero(inputs: LoanInputs, payment: real, m: nat, withExtra: real, year: nat, k: nat)
    requires m >= 1 && year < inputs.termYears && k == year * m
    requires inputs.extra >= 0.0 && inputs.annualRate >= 0.0
    requires 0.0 <= withExtra <= Amortize(inputs.principal, inputs.Rate(), payment, k)
    requires forall j: nat | j < inputs.termYears * m :: Amortize(inputs.principal, inputs.Rate(), payment, j) > 0.0
    requires Amortize(inputs.principal, inputs.Rate(), payment, inputs.termYears * m) == 0.0
    decreases inputs.termYears - year
    ensures var rows := YearRows(withExtra, Amortize(inputs.principal, inputs.Rate(), payment, k), year,
                                 inputs.termYears, ChartYear(inputs, payment, m));
      |rows| == inputs.termYears - year && PaidOff(rows[|rows| - 1])
  {
    var r := inputs.Rate();
    var step := ChartYear(inputs, payment, m);
    var b := Amortize(inputs.principal, r, payment, k);
    var next := step(withExtra, b, year);
    var row := Row(year + 1, next.0, next.1);
    var rows := YearRows(withExtra, b, year, inputs.termYears, step);
    YearsBefore(year, inputs.termYears, m);
    ClampedFollowsAmortize(inputs.principal, r, payment, k, m);
    assert next.1 == Amortize(inputs.principal, r, payment, k + m);
    ChartYearFacts(inputs, payment, m);
    assert 0.0 <= next.0 <= next.1;
    if year + 1 == inputs.termYears {
      assert k + m == inputs.termYears * m;
      assert PaidOff(row);
      assert rows == [row];
    } else {
      assert k + m < inputs.termYears * m;
      assert !PaidOff(row);
      var rest := YearRows(next.0, next.1, year + 1, inputs.termYears, step);
      assert rows == [row] + rest;
      assert k + m == (year + 1) * m;
      RowsReachZero(inputs, payment, m, next.0, year + 1, k + m);
    }
  }

  /**
    With the minimum repayment, a positive principal and rate and a non-negative extra, both
    series are non-increasing and reach zero exactly at x = termYears: the chart has
    termYears + 1 points on each line.
   */
  lemma ChartPaysOff(inputs: LoanInputs)
    requires inputs.principal > 0.0 && inputs.annualRate > 0.0 && inputs.termYears >= 1 && inputs.extra >= 0.0
    ensures var c := Series(inputs, Repayment(inputs.principal, inputs.annualRate, inputs.termYears).value);
      && |c.withExtra| == |c.withoutExtra| == inputs.termYears + 1
      && c.withExtra[inputs.termYears].y == 0.0 && c.withoutExtra[inputs.termYears].y == 0.0
      && NonIncreasing(c.withExtra) && NonIncreasing(c.withoutExtra)
  {
    var p := Repayment(inputs.principal, inputs.annualRate, inputs.termYears).value;
    RepaymentSolvesAnnuity(inputs.principal, inputs.annualRate, inputs.termYears);
    SeriesNonIncreasing(inputs, p);
    AnnuityPaysOff(inputs.principal, inputs.annualRate, inputs.termYears);
    assert inputs.termYears * MonthsPerYear == inputs.termYears * 12;
    RowsReachZero(inputs, p, MonthsPerYear, inputs.principal, 0, 0);
  }
}

=== FILE: calculator.dfy ===
/**
  `executeCalculations`: the values the results panel shows, before currency formatting —
  the minimum repayment, the increased repayment, the interest saved and the time saved,
  the last both as a month count and as the "N years and M months" text.
 */
module Calculator {
  import opened Wrappers
  import opened Loan
  import opened Repay
  import opened TimeSaved
  import opened Duration

  datatype Summary = Summary(
    minimumRepayment: real,
    increasedRepayment: real,
    interestSaved: real,
    timeSaved: int,
    saved: Saved,
    timeSavedText: string)

  /**
    The results for the given inputs; None where the minimum repayment is NaN or Infinity
    (every figure derived from it is then NaN too).
   */
  function Calculate(inputs: LoanInputs): (s: Option<Summary>)
    ensures s.Some? <==> Repayment(inputs.principal, inputs.annualRate, inputs.termYears).Some?
    ensures s.Some? ==> s.value.increasedRepayment - s.value.minimumRepayment == inputs.extra
    ensures s.Some? ==>
      s.value.saved.years * 12 <= s.value.timeSaved < s.value.saved.years * 12 + 12
  {
    var payment := Repayment(inputs.principal, inputs.annualRate, inputs.termYears);
    if payment.None? then None
    else
      var p := payment.value;
      var t := TimeSaved.TimeSaved(inputs, p);
      var d := SplitMonths(t);
      Some(Summary(p, p + inputs.extra, InterestSavedWith(inputs, p), t, d, DurationText(d)))
  }

  /** `executeCalculations` with its three loops run by the methods that mirror them. */
  method ExecuteCalculations(inputs: LoanInputs) returns (s: Option<Summary>)
    ensures s.Some? <==> Calculate(inputs).Some?
    ensures s.Some? ==> s.value == Calculate(inputs).value
  {
    var monthlyRepayment := Repayment(inputs.principal, inputs.annualRate, inputs.termYears);
    if monthlyRepayment.None? {
      return None;
    }
    var summary := Results(inputs, monthlyRepayment.value);
    s := Some(summary);
  }

  /** The figures of `executeCalculations` once the minimum repayment is a number. */
  method Results(inputs: LoanInputs, monthlyRepayment: real) returns (s: Summary)
    requires Repayment(inputs.principal, inputs.annualRate, inputs.termYears).Some?
    requires Repayment(inputs.principal, inputs.annualRate, inputs.termYears).value == monthlyRepayment
    ensures s == Calculate(inputs).value
  {
    var p := monthlyRepayment;
    var totalRepaymentWithExtra := TotalRepayment(inputs, p);
    var totalRepaymentWithoutExtra := p * (inputs.termYears as real) * 12.0;
    var interestSaved := (totalRepaymentWithoutExtra - inputs.principal) - (totalRepaymentWithExtra - inputs.principal);
    assert interestSaved == InterestSavedWith(inputs, p);
    var timeSaved := CalculateTimeSaved(inputs, p);
    var saved := Saved(timeSaved / 12, TruncRem12(timeSaved));
    s := Summary(p, p + inputs.extra, interestSaved, timeSaved, saved, DurationText(saved));
  }

  /**
    For a loan the form accepts (positive principal and rate, at least a year) and a
    non-negative extra: the minimum repayment is positive and pays the loan off over the
    term, nothing is lost by paying extra, the time saved lies within the term, and the text
    reads back as exactly the months saved.
   */
  lemma CalculateSound(inputs: LoanInputs)
    requires inputs.principal > 0.0 && inputs.annualRate > 0.0 && inputs.termYears >= 1
    requires inputs.extra >= 0.0
    ensures Calculate(inputs).Some?
    ensures var s := Calculate(inputs).value;
      && s.minimumRepayment > 0.0
      && Amortize(inputs.principal, inputs.Rate(), s.minimumRepayment, inputs.TermMonths()) == 0.0
      && s.interestSaved >= 0.0
      && 0 <= s.timeSaved <= inputs.TermMonths()
      && ParseDuration(s.timeSavedText).Some? && ParseDuration(s.timeSavedText).value == s.timeSaved
  {
    var p := Repayment(inputs.principal, inputs.annualRate, inputs.termYears).value;
    var s := Calculate(inputs).value;
    RepaymentSolvesAnnuity(inputs.principal, inputs.annualRate, inputs.termYears);
    AnnuityPaysOff(inputs.principal, inputs.annualRate, inputs.termYears);
    MoreExtraSavesMore(inputs, inputs.extra, inputs.startAfterYears);
    SavedIsWith(inputs, p);
    TimeSavedBounds(inputs, p);
    var t := TimeSaved.TimeSaved(inputs, p);
    DurationTextRoundTrip(t as nat);
  }

  /**
    Without an extra in effect (zero, or starting after the term) nothing is saved and the
    panel reads "0 years and 0 months".
   */
  lemma NothingSavedWithoutExtra(inputs: LoanInputs)
    requires inputs.principal > 0.0 && inputs.annualRate > 0.0 && inputs.termYears >= 1
    requires inputs.extra == 0.0 || inputs.StartMonth() >= inputs.TermMonths()
    ensures Calculate(inputs).Some?
    ensures var s := Calculate(inputs).value;
      s.interestSaved == 0.0 && s.timeSaved == 0 && s.timeSavedText == "0 years and 0 months"
  {
    var p := Repayment(inputs.principal, inputs.annualRate, inputs.termYears).value;
    var s := Calculate(inputs).value;
    assert s.interestSaved == 0.0 by {
      NoExtraSavesNothing(inputs);
      SavedIsWith(inputs, p);
    }
    assert s.timeSaved == 0 by {
      NoTimeSavedWithoutExtra(inputs, p);
    }
    assert s.timeSavedText == "0 years and 0 months" by {
      ZeroText();
    }
  }
}

=== FILE: decimal.dfy ===
/**
  Base-10 digit strings and natural numbers: the `\d` character class, `parseInt(…, 10)`
  on a string made only of digits, and the rendering of a whole number in a template string.
 */
module Decimal {

  /** The characters matched by the regular-expression class `\d`. */
  predicate IsDigit(c: char) {
    '0' <= c <= '9'
  }

  predicate AllDigits(s: string) {
    forall i | 0 <= i < |s| :: IsDigit(s[i])
  }

  function DigitValue(c: char): (d: nat)
    requires IsDigit(c)
    ensures d < 10
  {
    c as int - '0' as int
  }

  function DigitChar(d: nat): (c: char)
    requires d < 10
    ensures IsDigit(c) && DigitValue(c) == d
  {
    ('0' as int + d) as char
  }

  /** The number a digit string denotes, most significant digit first. */
  function Value(s: string): (n: nat)
    requires AllDigits(s)
    ensures n < Ten(|s|)
  {
    if |s| == 0 then 0 else Value(s[..|s| - 1]) * 10 + DigitValue(s[|s| - 1])
  }

  /** 10 to the power k: a string of k digits denotes a number below it. */
  function Ten(k: nat): nat {
    if k == 0 then 1 else 10 * Ten(k - 1)
  }

  /** The canonical decimal rendering of `n`: never empty, and no leading zero unless it is "0". */
  function Show(n: nat): (s: string)
    ensures |s| >= 1 && AllDigits(s)
    ensures s[0] == '0' <==> n == 0
    ensures s[0] == '0' ==> s == "0"
  {
    if n < 10 then [DigitChar(n)] else Show(n / 10) + [DigitChar(n % 10)]
  }

  /** Rendering of a possibly negative whole number, as a template string shows it. */
  function ShowInt(i: int): (s: string)
    ensures |s| >= 1
    ensures i >= 0 ==> AllDigits(s) && Value(s) == i
    ensures i < 0 ==> s[0] == '-' && AllDigits(s[1..]) && Value(s[1..]) == -i
  {
    if i < 0 then
      ValueOfShow(-i);
      assert ("-" + Show(-i))[1..] == Show(-i);
      "-" + Show(-i)
    else
      ValueOfShow(i);
      Show(i)
  }

  /** Reading back a rendered number gives the number. */
  lemma {:induction false} ValueOfShow(n: nat)
    ensures Value(Show(n)) == n
  {
    if n >= 10 {
      ValueOfShow(n / 10);
      var s := Show(n);
      assert s[..|s| - 1] == Show(n / 10);
    }
  }

  /** A digit string that does not start with '0' denotes a positive number. */
  lemma {:induction false} LeadingNonZeroIsPositive(s: string)
    requires AllDigits(s) && |s| >= 1 && s[0] != '0'
    ensures Value(s) > 0
  {
    if |s| > 1 {
      LeadingNonZeroIsPositive(s[..|s| - 1]);
    }
  }

  /** Rendering the value of a canonical digit string gives that string back. */
  lemma {:induction false} ShowOfValue(s: string)
    requires AllDigits(s) && |s| >= 1
    requires s[0] != '0' || |s| == 1
    ensures Show(Value(s)) == s
  {
    var last := s[|s| - 1];
    if |s| == 1 {
      assert Value(s) == DigitValue(last);
      assert DigitChar(DigitValue(last)) == last;
      assert s == [last];
    } else {
      var front := s[..|s| - 1];
      LeadingNonZeroIsPositive(front);
      ShowOfValue(front);
      var n := Value(s);
      assert n == Value(front) * 10 + DigitValue(last);
      assert n / 10 == Value(front) && n % 10 == DigitValue(last);
      assert DigitChar(DigitValue(last)) == last;
      assert s == front + [last];
    }
  }

  /** A leading zero does not change the value of a digit string. */
  lemma {:induction false} LeadingZeroValue(d: string)
    requires AllDigits(d)
    ensures AllDigits("0" + d) && Value("0" + d) == Value(d)
  {
    var z := "0" + d;
    assert forall i | 1 <= i < |z| :: z[i] == d[i - 1];
    if |d| == 0 {
      assert z[..0] == "";
    } else {
      var front := d[..|d| - 1];
      assert z[..|z| - 1] == "0" + front;
      LeadingZeroValue(front);
    }
  }

  /** Length of the longest prefix of `s` made of digits (what `parseInt` reads). */
  function LeadingDigits(s: string): (k: nat)
    ensures k <= |s| && AllDigits(s[..k])
    ensures k < |s| ==> !IsDigit(s[k])
  {
    if |s| == 0 || !IsDigit(s[0]) then 0
    else
      var k := 1 + LeadingDigits(s[1..]);
      assert forall i | 1 <= i < k :: s[..k][i] == s[1..][..k - 1][i - 1];
      k
  }

  /** The digit prefix of a digit string followed by a non-digit is that digit string. */
  lemma {:induction false} LeadingDigitsOfConcat(d: string, rest: string)
    requires AllDigits(d)
    requires |rest| == 0 || !IsDigit(rest[0])
    ensures LeadingDigits(d + rest) == |d|
  {
    if |d| > 0 {
      assert (d + rest)[1..] == d[1..] + rest;
      LeadingDigitsOfConcat(d[1..], rest);
    }
  }
}

=== FILE: duration.dfy ===
/**
  The "time saved" text of the results panel: a signed month count split into whole years
  (`Math.floor(t / 12)`) and a remainder (`t % 12`, which truncates toward zero in JavaScript),
  each followed by its unit, singular only for exactly one.
 */
module Duration {
  import opened Wrappers
  import opened Decimal

  datatype Saved = Saved(years: int, months: int)

  /** JavaScript's `%` by 12: the remainder takes the sign of the dividend. */
  function TruncRem12(t: int): (r: int)
    ensures -12 < r < 12 && (t - r) % 12 == 0
    ensures t >= 0 ==> r >= 0
    ensures t <= 0 ==> r <= 0
  {
    if t >= 0 then t % 12 else -((-t) % 12)
  }

  /** The `yearsSaved`/`monthsSaved` split. */
  function SplitMonths(t: int): (d: Saved)
    ensures d.years * 12 <= t < d.years * 12 + 12
    ensures -12 < d.months < 12 && (t - d.months) % 12 == 0
    ensures t >= 0 ==> d.years >= 0 && 0 <= d.months && d.years * 12 + d.months == t
    ensures t < 0 ==> d.months <= 0
  {
    Saved(t / 12, TruncRem12(t))
  }

  /** A negative count mixes floor and truncation: -5 months reads as -1 years and -5 months. */
  lemma NegativeSplitExample()
    ensures SplitMonths(-5) == Saved(-1, -5)
  {
  }

  /** Nothing saved reads "0 years and 0 months": zero takes the plural. */
  lemma ZeroText()
    ensures DurationText(SplitMonths(0)) == "0 years and 0 months"
  {
    assert SplitMonths(0) == Saved(0, 0);
    TextOfCounts(0, 0);
    ZeroCounts();
  }

  lemma ZeroCounts()
    ensures Show(0) + UnitWord(0, "year") + " and " + Show(0) + UnitWord(0, "month") == "0 years and 0 months"
  {
    assert Show(0) == "0";
  }

  /** The unit after a count: singular exactly when the count is one, plural otherwise (0 included). */
  function UnitWord(n: int, word: string): (u: string)
    ensures u == " " + word <==> n == 1
    ensures u == " " + word + "s" <==> n != 1
  {
    " " + word + (if n != 1 then "s" else "")
  }

  /** The text written into the page for a split duration. */
  function DurationText(d: Saved): (text: string)
    ensures d.years >= 0 && 0 <= d.months < 12 ==> ParseDuration(text) == Some(d.years * 12 + d.months)
  {
    TextReadsBack(d);
    ShowInt(d.years) + UnitWord(d.years, "year") + " and " + ShowInt(d.months) + UnitWord(d.months, "month")
  }

  /** Without signs the label is the text `ReadBack` reads. */
  lemma TextReadsBack(d: Saved)
    ensures d.years >= 0 && 0 <= d.months < 12 ==>
      ParseDuration(ShowInt(d.years) + UnitWord(d.years, "year") + " and " + ShowInt(d.months) + UnitWord(d.months, "month"))
        == Some(d.years * 12 + d.months)
  {
    if d.years >= 0 && 0 <= d.months < 12 {
      assert ShowInt(d.years) == Show(d.years) && ShowInt(d.months) == Show(d.months);
      ReadBack(d.years, d.months);
    }
  }

  /** Reads "<digits> <word>" or "<digits> <word>s" at the front of `s`, insisting on the plural rule; returns the count and what follows. */
  function ReadCount(s: string, word: string): (r: Option<(nat, string)>)
    ensures r.Some? ==> |r.value.1| < |s|
  {
    var k := LeadingDigits(s);
    if k == 0 then None
    else
      var n := Value(s[..k]);
      var unit := UnitWord(n, word);
      if unit <= s[k..] then Some((n, s[k + |unit|..])) else None
  }

  /** Reads a duration text back to the month count it states, if it is well formed. */
  function ParseDuration(s: string): Option<int> {
    match ReadCount(s, "year")
    case None => None
    case Some((years, rest)) =>
      if " and " <= rest then
        match ReadCount(rest[5..], "month")
        case None => None
        case Some((months, tail)) =>
          if tail == "" && months < 12 then Some(years * 12 + months) else None
      else None
  }

  lemma ReadCountOfShow(n: nat, word: string, rest: string)
    ensures ReadCount(Show(n) + UnitWord(n, word) + rest, word) == Some((n, rest))
  {
    var d := Show(n);
    var unit := UnitWord(n, word);
    var s := d + unit + rest;
    assert s == d + (unit + rest);
    LeadingDigitsOfConcat(d, unit + rest);
    assert s[..|d|] == d;
    ValueOfShow(n);
    assert s[|d|..] == unit + rest;
    assert s[|d| + |unit|..] == rest;
  }

  /** For a non-negative month count the text states exactly that count, with the plural rule respected. */
  lemma DurationTextRoundTrip(t: nat)
    ensures ParseDuration(DurationText(SplitMonths(t))) == Some(t)
  {
    var d := SplitMonths(t);
    assert d.years >= 0 && 0 <= d.months < 12 && d.years * 12 + d.months == t;
  }

  /** For non-negative counts the signs drop out of the text. */
  lemma TextOfCounts(y: nat, m: nat)
    ensures DurationText(Saved(y, m)) == Show(y) + UnitWord(y, "year") + " and " + Show(m) + UnitWord(m, "month")
  {
  }

  /** The text for y years and m months (m below twelve) reads back as y * 12 + m months. */
  lemma ReadBack(y: nat, m: nat)
    requires m < 12
    ensures ParseDuration(Show(y) + UnitWord(y, "year") + " and " + Show(m) + UnitWord(m, "month")) == Some(y * 12 + m)
  {
    var monthPart := Show(m) + UnitWord(m, "month");
    var rest := " and " + monthPart;
    assert Show(y) + UnitWord(y, "year") + " and " + Show(m) + UnitWord(m, "month") == Show(y) + UnitWord(y, "year") + rest;
    ReadCountOfShow(y, "year", rest);
    assert " and " <= rest && rest[5..] == monthPart + "";
    ReadCountOfShow(m, "month", "");
    ParseDurationOf(Show(y) + UnitWord(y, "year") + rest, y, rest, m);
  }

  /** How `ParseDuration` reads a text whose two counts have been read. */
  lemma ParseDurationOf(s: string, y: nat, rest: string, m: nat)
    requires ReadCount(s, "year") == Some((y, rest)) && " and " <= rest
    requires ReadCount(rest[5..], "month") == Some((m, "")) && m < 12
    ensures ParseDuration(s) == Some(y * 12 + m)
  {
  }
}

=== FILE: loan.dfy ===
/**
  Loan inputs, the monthly rate and the closed-form minimum repayment of the calculator
  (`calculateMonthlyInterestRate`, `calculateMonthlyRepayment`), plus the unclamped monthly
  recurrence b := b * (1 + rate) - payment and its closed form.
 */
module Loan {
  import opened Wrappers

  /** The five form values, already parsed; the two year counts are whole numbers. */
  datatype LoanInputs = LoanInputs(
    principal: real,
    annualRate: real,
    termYears: nat,
    extra: real,
    startAfterYears: nat)
  {
    function TermMonths(): nat { termYears * 12 }
    function StartMonth(): nat { startAfterYears * 12 }
    function Rate(): real { MonthlyRate(annualRate) }
  }

  /** A yearly percentage turned into a monthly fraction. */
  function MonthlyRate(annualRate: real): (r: real)
    ensures r * 1200.0 == annualRate
    ensures r > 0.0 <==> annualRate > 0.0
  {
    annualRate / 12.0 / 100.0
  }

  function Pow(x: real, n: nat): (p: real)
    ensures x != 0.0 ==> p != 0.0
    ensures x > 0.0 ==> p > 0.0
  {
    if n == 0 then 1.0 else x * Pow(x, n - 1)
  }

  lemma {:induction false} PowOfOne(n: nat)
    ensures Pow(1.0, n) == 1.0
  {
    if n > 0 {
      PowOfOne(n - 1);
    }
  }

  /** Powers of a base above one grow strictly. */
  lemma {:induction false} PowIncreasing(x: real, j: nat, k: nat)
    requires x > 1.0 && j < k
    ensures Pow(x, j) < Pow(x, k)
  {
    if j < k - 1 {
      PowIncreasing(x, j, k - 1);
    }
    var p := Pow(x, k - 1);
    assert Pow(x, k) == x * p;
    assert x * p > p;
  }

  /**
    `calculateMonthlyRepayment`: principal * r / (1 - (1 + r)^(-n)) with n = 12 * termYears.
    None stands for the NaN or Infinity the browser computes when the denominator is zero,
    which happens at a zero rate and for a zero term. When 1 + r is zero the power is
    Infinity and the quotient is zero.
   */
  function Repayment(principal: real, annualRate: real, termYears: nat): (p: Option<real>)
    ensures annualRate == 0.0 ==> p.None?
    ensures termYears == 0 ==> p.None?
    ensures annualRate > 0.0 && termYears >= 1 ==> p.Some?
  {
    var r := MonthlyRate(annualRate);
    var n := termYears * 12;
    var x := 1.0 + r;
    if x == 0.0 then
      if n == 0 then None else Some(0.0)
    else
      var d := 1.0 - 1.0 / Pow(x, n);
      assert annualRate == 0.0 ==> d == 0.0 by { PowOfOne(n); }
      assert annualRate > 0.0 && n >= 1 ==> d > 0.0 by {
        if annualRate > 0.0 && n >= 1 {
          PowIncreasing(x, 0, n);
        }
      }
      if d == 0.0 then None else Some(principal * r / d)
  }

  /**
    With a positive rate and at least one year, the repayment solves the annuity equation
    p * (1 - (1 + r)^(-n)) == principal * r, is positive for a positive principal and is never
    below the first month's interest.
   */
  lemma RepaymentSolvesAnnuity(principal: real, annualRate: real, termYears: nat)
    requires annualRate > 0.0 && termYears >= 1
    ensures var r := MonthlyRate(annualRate);
      var p := Repayment(principal, annualRate, termYears).value;
      && p * (1.0 - 1.0 / Pow(1.0 + r, termYears * 12)) == principal * r
      && (principal > 0.0 ==> p > 0.0)
      && (principal >= 0.0 ==> p >= principal * r)
  {
    var r := MonthlyRate(annualRate);
    var n := termYears * 12;
    var x := 1.0 + r;
    PowIncreasing(x, 0, n);
    var d := 1.0 - 1.0 / Pow(x, n);
    assert 0.0 < d < 1.0;
    assert Repayment(principal, annualRate, termYears).value == principal * r / d;
    QuotientFacts(principal * r, d);
    if principal > 0.0 {
      assert principal * r > 0.0;
    } else if principal >= 0.0 {
      assert principal * r >= 0.0;
    }
  }

  /** Dividing by a number strictly between zero and one. */
  lemma QuotientFacts(a: real, d: real)
    requires 0.0 < d < 1.0
    ensures (a / d) * d == a
    ensures a > 0.0 ==> a / d > 0.0
    ensures a >= 0.0 ==> a / d >= a
  {
    var q := a / d;
    assert q * d == a;
    if a >= 0.0 {
      assert q >= 0.0;
      assert q * d <= q;
    }
  }

  /**
    Balance after k months of b := b * (1 + rate) - payment, with no clamping. A payment that
    covers the first month's interest keeps it at or below the principal.
   */
  function Amortize(principal: real, rate: real, payment: real, k: nat): (b: real)
    ensures rate >= 0.0 && payment >= principal * rate ==> b <= principal
  {
    if k == 0 then principal else Amortize(principal, rate, payment, k - 1) * (1.0 + rate) - payment
  }

  /** One month of the recurrence preserves the closed form (pure algebra). */
  lemma ClosedFormStep(a: real, b: real, rate: real, payment: real, principal: real, x: real, y: real)
    requires a * rate == principal * rate * x - payment * (x - 1.0)
    requires b == a * (1.0 + rate) - payment && y == (1.0 + rate) * x
    ensures b * rate == principal * rate * y - payment * (y - 1.0)
  {
    var h := a * rate;
    assert b * rate == h + h * rate - payment * rate;
    assert h * rate == (principal * rate * x - payment * (x - 1.0)) * rate;
  }

  /** The closed form of the recurrence, multiplied through by the rate. */
  lemma {:induction false} AmortizeClosedForm(principal: real, rate: real, payment: real, k: nat)
    ensures Amortize(principal, rate, payment, k) * rate
         == principal * rate * Pow(1.0 + rate, k) - payment * (Pow(1.0 + rate, k) - 1.0)
  {
    if k > 0 {
      var a, b := Amortize(principal, rate, payment, k - 1), Amortize(principal, rate, payment, k);
      var x, y := Pow(1.0 + rate, k - 1), Pow(1.0 + rate, k);
      assert a * rate == principal * rate * x - payment * (x - 1.0) by {
        AmortizeClosedForm(principal, rate, payment, k - 1);
      }
      assert b == a * (1.0 + rate) - payment && y == (1.0 + rate) * x;
      ClosedFormStep(a, b, rate, payment, principal, x, y);
    }
  }

  /** Under the annuity equation, the balance after k months is proportional to X^n - X^k. */
  lemma AnnuityBalance(principal: real, rate: real, payment: real, n: nat, k: nat)
    requires rate > 0.0
    requires payment * (1.0 - 1.0 / Pow(1.0 + rate, n)) == principal * rate
    ensures Amortize(principal, rate, payment, k) * rate * Pow(1.0 + rate, n)
         == payment * (Pow(1.0 + rate, n) - Pow(1.0 + rate, k))
  {
    AmortizeClosedForm(principal, rate, payment, k);
    AnnuityAlgebra(Amortize(principal, rate, payment, k), rate, payment, principal,
                   Pow(1.0 + rate, n), Pow(1.0 + rate, k));
  }

  /** The algebra behind `AnnuityBalance`, over plain numbers. */
  lemma AnnuityAlgebra(a: real, rate: real, payment: real, principal: real, xn: real, xk: real)
    requires xn > 0.0
    requires a * rate == principal * rate * xk - payment * (xk - 1.0)
    requires payment * (1.0 - 1.0 / xn) == principal * rate
    ensures a * rate * xn == payment * (xn - xk)
  {
    assert payment * (xn - 1.0) == principal * rate * xn by {
      calc {
        payment * (xn - 1.0);
        payment * (1.0 - 1.0 / xn) * xn;
        principal * rate * xn;
      }
    }
    calc {
      a * rate * xn;
      (principal * rate * xk - payment * (xk - 1.0)) * xn;
      xk * (principal * rate * xn) - payment * (xk - 1.0) * xn;
      xk * (payment * (xn - 1.0)) - payment * (xk - 1.0) * xn;
      payment * (xn - xk);
    }
  }

  /** A balance clamped at zero, as `Math.max(0, x)` or `if (x < 0) x = 0` compute it. */
  function ClampAtZero(x: real): (c: real)
    ensures c >= 0.0 && c >= x
    ensures x >= 0.0 ==> c == x
    ensures c == 0.0 || c == x
  {
    if x < 0.0 then 0.0 else x
  }

  lemma ClampMonotone(x: real, y: real)
    requires x <= y
    ensures ClampAtZero(x) <= ClampAtZero(y)
  {
  }

  lemma MulMonotone(a: real, b: real, c: real)
    requires a <= b && c >= 0.0
    ensures a * c <= b * c
  {
    assert (b - a) * c >= 0.0;
  }

  /** A month of growth and repayment keeps the order of two balances, the smaller repaying no less. */
  lemma GrowMonotone(lo: real, hi: real, factor: real, repayLo: real, repayHi: real)
    requires lo <= hi && factor >= 0.0 && repayHi <= repayLo
    ensures lo * factor - repayLo <= hi * factor - repayHi
  {
    assert (hi - lo) * factor >= 0.0;
    assert hi * factor - lo * factor == (hi - lo) * factor;
  }

  /** The sign of a balance from its scaled closed form a * rate * X^n == payment * (X^n - X^k). */
  lemma BalanceSign(a: real, rate: real, payment: real, xn: real, xk: real)
    requires rate > 0.0 && xn > 0.0 && xk <= xn
    requires a * rate * xn == payment * (xn - xk)
    ensures xk == xn ==> a == 0.0
    ensures payment > 0.0 && xk < xn ==> a > 0.0
  {
    var b := rate * xn;
    assert b > 0.0;
    assert a * b == payment * (xn - xk);
    if xk < xn && payment > 0.0 {
      assert payment * (xn - xk) > 0.0;
    }
  }

  /** Under the annuity equation the unclamped balance is exactly zero after n months. */
  lemma AnnuityEndsAtZero(principal: real, rate: real, payment: real, n: nat)
    requires rate > 0.0
    requires payment * (1.0 - 1.0 / Pow(1.0 + rate, n)) == principal * rate
    ensures Amortize(principal, rate, payment, n) == 0.0
  {
    var xn := Pow(1.0 + rate, n);
    var a := Amortize(principal, rate, payment, n);
    AnnuityBalance(principal, rate, payment, n, n);
    BalanceSign(a, rate, payment, xn, xn);
  }

  /** Under the annuity equation with a positive payment the unclamped balance stays positive before month n. */
  lemma AnnuityPositiveBefore(principal: real, rate: real, payment: real, n: nat, k: nat)
    requires rate > 0.0 && payment > 0.0 && k < n
    requires payment * (1.0 - 1.0 / Pow(1.0 + rate, n)) == principal * rate
    ensures Amortize(principal, rate, payment, k) > 0.0
  {
    var xn := Pow(1.0 + rate, n);
    var xk := Pow(1.0 + rate, k);
    var a := Amortize(principal, rate, payment, k);
    AnnuityBalance(principal, rate, payment, n, k);
    PowIncreasing(1.0 + rate, k, n);
    BalanceSign(a, rate, payment, xn, xk);
  }

  /**
    With a positive rate and at least one month, the minimum repayment keeps the unclamped
    balance positive for every earlier month and brings it to exactly zero after the last.
   */
  lemma AnnuityPaysOff(principal: real, annualRate: real, termYears: nat)
    requires annualRate > 0.0 && termYears >= 1
    ensures var r := MonthlyRate(annualRate);
      var p := Repayment(principal, annualRate, termYears).value;
      && Amortize(principal, r, p, termYears * 12) == 0.0
      && (principal > 0.0 ==> forall k: nat | k < termYears * 12 :: Amortize(principal, r, p, k) > 0.0)
  {
    var r := MonthlyRate(annualRate);
    var n := termYears * 12;
    var p := Repayment(principal, annualRate, termYears).value;
    RepaymentSolvesAnnuity(principal, annualRate, termYears);
    AnnuityEndsAtZero(principal, r, p, n);
    if principal > 0.0 {
      forall k: nat | k < n
        ensures Amortize(principal, r, p, k) > 0.0
      {
        AnnuityPositiveBefore(principal, r, p, n, k);
      }
    }
  }
}

=== FILE: repay.dfy ===
/**
  `calculateTotalRepayment` and `calculateInterestSaved`: a month-by-month simulation that
  adds interest to a positive balance, then takes the extra payment (once it has started)
  and the minimum payment, each capped at what is still owed, and stops once nothing is owed.
 */
module Repay {
  import opened Wrappers
  import opened Loan

  /** The loop's state: what is still owed, the money paid so far, and the months simulated. */
  datatype Account = Account(balance: real, paid: real, month: nat)

  function Min(a: real, b: real): real {
    if a <= b then a else b
  }

  /** Interest added in a month: only a positive balance accrues. */
  function MonthInterest(balance: real, rate: real): (i: real)
    ensures balance <= 0.0 ==> i == 0.0
    ensures balance >= 0.0 && rate >= 0.0 ==> i >= 0.0
  {
    if balance > 0.0 then balance * rate else 0.0
  }

  /** The extra payment taken in `month` when `owed` is owed after interest. */
  function ExtraTaken(owed: real, month: nat, extra: real, startMonth: nat): (x: real)
    ensures month < startMonth || extra <= 0.0 ==> x == 0.0
    ensures owed >= 0.0 ==> 0.0 <= x <= owed
    ensures month >= startMonth && extra > 0.0 ==> x <= extra && x <= owed && (x == extra || x == owed)
  {
    if month >= startMonth && extra > 0.0 then Min(extra, owed) else 0.0
  }

  /** One pass of the loop body. */
  function RepayMonth(a: Account, rate: real, payment: real, extra: real, startMonth: nat): (r: Account)
    ensures r.month == a.month + 1
    ensures r.balance + r.paid == a.balance + a.paid + MonthInterest(a.balance, rate)
    ensures a.balance >= 0.0 && rate >= 0.0 && payment >= 0.0 ==> r.balance >= 0.0 && r.paid >= a.paid
  {
    var owed := a.balance + MonthInterest(a.balance, rate);
    var x := ExtraTaken(owed, a.month, extra, startMonth);
    var m := Min(payment, owed - x);
    Account(owed - x - m, a.paid + x + m, a.month + 1)
  }

  /**
    The loop from state `a` on: at most `n` months in all, leaving early in the first month
    that ends with nothing owed. The balance is tested only after a pass, so while months
    remain at least one pass is made, whatever is owed.
   */
  function RepayFrom(a: Account, n: nat, rate: real, payment: real, extra: real, startMonth: nat): (r: Account)
    decreases n - a.month
    ensures r.month >= a.month
    ensures a.month < n ==> r.month > a.month
    ensures a.month <= n ==> r.month <= n
    ensures r.month < n ==> r.balance <= 0.0
  {
    if a.month >= n then a
    else
      var next := RepayMonth(a, rate, payment, extra, startMonth);
      if next.balance <= 0.0 then next else RepayFrom(next, n, rate, payment, extra, startMonth)
  }

  /**
    The state after k passes of the loop body from `a`, whatever the balances. From a
    non-negative balance it never owes a negative amount and the total never falls.
   */
  function Ledger(a: Account, k: nat, rate: real, payment: real, extra: real, startMonth: nat): (r: Account)
    decreases k
    ensures r.month == a.month + k
    ensures a.balance >= 0.0 && rate >= 0.0 && payment >= 0.0 ==> r.balance >= 0.0 && r.paid >= a.paid
  {
    if k == 0 then a
    else Ledger(RepayMonth(a, rate, payment, extra, startMonth), k - 1, rate, payment, extra, startMonth)
  }

  /**
    `RepayFrom` leaves in the first month that ends with nothing owed: the state it returns is
    the ledger after some m months, every earlier month ended with a positive balance, and
    month m ended owing nothing unless it was the last month of the term.
   */
  lemma {:induction false} RepayFromIsFirstExit(a: Account, n: nat, rate: real, payment: real, extra: real,
                                                startMonth: nat)
    requires a.month <= n
    decreases n - a.month
    ensures var r := RepayFrom(a, n, rate, payment, extra, startMonth);
      && r == Ledger(a, r.month - a.month, rate, payment, extra, startMonth)
      && (r.month == n || r.balance <= 0.0)
      && (forall j: nat | 0 < j < r.month - a.month :: Ledger(a, j, rate, payment, extra, startMonth).balance > 0.0)
  {
    var r := RepayFrom(a, n, rate, payment, extra, startMonth);
    if a.month < n {
      var next := RepayMonth(a, rate, payment, extra, startMonth);
      assert Ledger(a, 1, rate, payment, extra, startMonth) == next;
      if next.balance > 0.0 {
        assert r == RepayFrom(next, n, rate, payment, extra, startMonth);
        RepayFromIsFirstExit(next, n, rate, payment, extra, startMonth);
        assert r == Ledger(next, r.month - next.month, rate, payment, extra, startMonth);
        assert r.month - a.month > 0;
        forall j: nat | 1 < j < r.month - a.month
          ensures Ledger(a, j, rate, payment, extra, startMonth).balance > 0.0
        {
          assert Ledger(a, j, rate, payment, extra, startMonth) == Ledger(next, j - 1, rate, payment, extra, startMonth);
        }
      }
    }
  }

  /** The interest added over the months `RepayFrom` simulates (the browser code does not sum it). */
  function InterestFrom(a: Account, n: nat, rate: real, payment: real, extra: real, startMonth: nat): (i: real)
    decreases n - a.month
    ensures a.balance >= 0.0 && rate >= 0.0 && payment >= 0.0 ==> i >= 0.0
  {
    if a.month >= n then 0.0
    else
      var next := RepayMonth(a, rate, payment, extra, startMonth);
      MonthInterest(a.balance, rate)
        + (if next.balance <= 0.0 then 0.0 else InterestFrom(next, n, rate, payment, extra, startMonth))
  }

  /**
    Money is conserved: what is paid plus what is still owed equals what was owed plus the
    interest added. With non-negative inputs the balance never goes negative and every amount
    paid is non-negative.
   */
  lemma {:induction false} RepayFromConserves(a: Account, n: nat, rate: real, payment: real, extra: real, startMonth: nat)
    decreases n - a.month
    ensures var r := RepayFrom(a, n, rate, payment, extra, startMonth);
      r.balance + r.paid == a.balance + a.paid + InterestFrom(a, n, rate, payment, extra, startMonth)
    ensures var r := RepayFrom(a, n, rate, payment, extra, startMonth);
      a.balance >= 0.0 && rate >= 0.0 && payment >= 0.0 ==> r.balance >= 0.0 && r.paid >= a.paid
  {
    if a.month < n {
      var next := RepayMonth(a, rate, payment, extra, startMonth);
      if next.balance > 0.0 {
        RepayFromConserves(next, n, rate, payment, extra, startMonth);
      }
    }
  }

  function Start(inputs: LoanInputs): Account {
    Account(inputs.principal, 0.0, 0)
  }

  /** The whole simulation for the form's inputs and a given minimum repayment. */
  function Run(inputs: LoanInputs, payment: real): Account {
    RepayFrom(Start(inputs), inputs.TermMonths(), inputs.Rate(), payment, inputs.extra, inputs.StartMonth())
  }

  /** The interest added during the whole simulation. */
  function RunInterest(inputs: LoanInputs, payment: real): real {
    InterestFrom(Start(inputs), inputs.TermMonths(), inputs.Rate(), payment, inputs.extra, inputs.StartMonth())
  }

  /**
    The value `calculateTotalRepayment` returns. With non-negative inputs it is never negative
    and never more than the principal plus the interest added: the capped payments never
    overpay.
   */
  function TotalRepaid(inputs: LoanInputs, payment: real): (total: real)
    ensures inputs.principal >= 0.0 && inputs.annualRate >= 0.0 && payment >= 0.0 ==>
      0.0 <= total <= inputs.principal + RunInterest(inputs, payment)
  {
    RepayFromConserves(Start(inputs), inputs.TermMonths(), inputs.Rate(), payment, inputs.extra, inputs.StartMonth());
    Run(inputs, payment).paid
  }

  /** The body of `calculateTotalRepayment`'s loop as written, for one month. */
  method PayMonth(balance: real, total: real, month: nat, rate: real, payment: real,
                  extraContribution: real, startAfterMonths: nat)
    returns (newBalance: real, newTotal: real)
    ensures Account(newBalance, newTotal, month + 1)
         == RepayMonth(Account(balance, total, month), rate, payment, extraContribution, startAfterMonths)
  {
    ghost var owed := balance + MonthInterest(balance, rate);
    ghost var x := ExtraTaken(owed, month, extraContribution, startAfterMonths);
    newBalance, newTotal := balance, total;
    if newBalance > 0.0 {
      var interestForThisMonth := newBalance * rate;
      newBalance := newBalance + interestForThisMonth;
    }
    assert newBalance == owed;
    if month >= startAfterMonths && extraContribution > 0.0 {
      var adjustedExtra := Min(extraContribution, newBalance);
      newBalance := newBalance - adjustedExtra;
      newTotal := newTotal + adjustedExtra;
    }
    assert newBalance == owed - x && newTotal == total + x;
    var principalPayment := Min(payment, newBalance);
    newBalance := newBalance - principalPayment;
    newTotal := newTotal + principalPayment;
  }

  /** The loop of `calculateTotalRepayment` as written: at most n months, leaving once nothing is owed. */
  method TotalRepayment(inputs: LoanInputs, payment: real) returns (total: real)
    ensures total == TotalRepaid(inputs, payment)
  {
    var rate := MonthlyRate(inputs.annualRate);
    var termInMonths := inputs.termYears * 12;
    var startAfterMonths := inputs.startAfterYears * 12;
    total := 0.0;
    var balance := inputs.principal;
    var month: nat := 0;
    ghost var target := Run(inputs, payment);
    while month < termInMonths
      invariant month <= termInMonths
      invariant RepayFrom(Account(balance, total, month), termInMonths, rate, payment, inputs.extra, startAfterMonths)
             == target
    {
      balance, total := PayMonth(balance, total, month, rate, payment, inputs.extra, startAfterMonths);
      month := month + 1;
      if balance <= 0.0 {
        break;
      }
    }
  }

  /**
    Over the whole simulation the total paid plus what is still owed is the principal plus the
    interest added, and with non-negative inputs neither the total nor the balance is negative.
   */
  lemma RunConserves(inputs: LoanInputs, payment: real)
    ensures TotalRepaid(inputs, payment) + Run(inputs, payment).balance == inputs.principal + RunInterest(inputs, payment)
    ensures inputs.principal >= 0.0 && inputs.annualRate >= 0.0 && payment >= 0.0 ==>
      TotalRepaid(inputs, payment) >= 0.0 && Run(inputs, payment).balance >= 0.0
  {
    RepayFromConserves(Start(inputs), inputs.TermMonths(), inputs.Rate(), payment, inputs.extra, inputs.StartMonth());
  }

  /**
    `calculateInterestSaved` once the minimum repayment is known: the interest of the
    full-term schedule minus that of the simulation; the principal cancels out.
   */
  function InterestSavedWith(inputs: LoanInputs, payment: real): (s: real)
    ensures s == payment * (inputs.TermMonths() as real) - TotalRepaid(inputs, payment)
  {
    var withoutExtra := payment * (inputs.termYears as real) * 12.0;
    var withExtra := TotalRepaid(inputs, payment);
    (withoutExtra - inputs.principal) - (withExtra - inputs.principal)
  }

  /** `calculateInterestSaved`; None where the minimum repayment is NaN or Infinity. */
  function InterestSaved(inputs: LoanInputs): (s: Option<real>)
    ensures s.Some? <==> Repayment(inputs.principal, inputs.annualRate, inputs.termYears).Some?
  {
    SavedFor(inputs, Repayment(inputs.principal, inputs.annualRate, inputs.termYears))
  }

  /** The saving for a repayment that may be NaN or Infinity (None). */
  function SavedFor(inputs: LoanInputs, payment: Option<real>): (s: Option<real>)
    ensures s.Some? <==> payment.Some?
    ensures payment.Some? ==> s.value == payment.value * (inputs.TermMonths() as real) - TotalRepaid(inputs, payment.value)
  {
    if payment.None? then None else Some(InterestSavedWith(inputs, payment.value))
  }

  /** An extra payment that is not positive, or starts after the last month, changes nothing. */
  lemma {:induction false} ExtraIgnoredUnlessStarted(a: Account, n: nat, rate: real, payment: real,
                                                     extra: real, startMonth: nat)
    requires extra <= 0.0 || startMonth >= n
    decreases n - a.month
    ensures RepayFrom(a, n, rate, payment, extra, startMonth) == RepayFrom(a, n, rate, payment, 0.0, startMonth)
    ensures InterestFrom(a, n, rate, payment, extra, startMonth) == InterestFrom(a, n, rate, payment, 0.0, startMonth)
  {
    if a.month < n {
      assert RepayMonth(a, rate, payment, extra, startMonth) == RepayMonth(a, rate, payment, 0.0, startMonth);
      var next := RepayMonth(a, rate, payment, extra, startMonth);
      if next.balance > 0.0 {
        ExtraIgnoredUnlessStarted(next, n, rate, payment, extra, startMonth);
      }
    }
  }

  /** One month: a smaller balance with at least as much extra stays smaller and accrues no more interest. */
  lemma MonthMonotone(lo: Account, hi: Account, rate: real, payment: real,
                      extraLo: real, startLo: nat, extraHi: real, startHi: nat)
    requires lo.month == hi.month
    requires 0.0 <= lo.balance <= hi.balance && rate >= 0.0 && payment >= 0.0
    requires extraHi <= extraLo && startLo <= startHi
    ensures MonthInterest(lo.balance, rate) <= MonthInterest(hi.balance, rate)
    ensures RepayMonth(lo, rate, payment, extraLo, startLo).balance <= RepayMonth(hi, rate, payment, extraHi, startHi).balance
  {
    var interestLo := MonthInterest(lo.balance, rate);
    var interestHi := MonthInterest(hi.balance, rate);
    InterestMonotone(lo.balance, hi.balance, rate);
    var owedLo := lo.balance + interestLo;
    var owedHi := hi.balance + interestHi;
    assert 0.0 <= owedLo <= owedHi;
    var xLo := ExtraTaken(owedLo, lo.month, extraLo, startLo);
    var xHi := ExtraTaken(owedHi, hi.month, extraHi, startHi);
    assert 0.0 <= owedLo - xLo <= owedHi - xHi by {
      if hi.month >= startHi && extraHi > 0.0 {
        CappedMonotone(owedLo, owedHi, extraLo, extraHi);
      } else {
        assert xHi == 0.0;
      }
    }
    CappedMonotone(owedLo - xLo, owedHi - xHi, payment, payment);
  }

  /** A smaller non-negative balance accrues no more interest. */
  lemma InterestMonotone(lo: real, hi: real, rate: real)
    requires 0.0 <= lo <= hi && rate >= 0.0
    ensures MonthInterest(lo, rate) <= MonthInterest(hi, rate)
  {
    if lo > 0.0 {
      MulMonotone(lo, hi, rate);
    } else {
      MulNonNegative(hi, rate);
    }
  }

  /** Taking a capped amount out of a smaller sum, with a cap at least as large, leaves no more. */
  lemma CappedMonotone(u: real, v: real, capLo: real, capHi: real)
    requires 0.0 <= u <= v && capHi <= capLo
    ensures 0.0 <= u - Min(capLo, u) <= v - Min(capHi, v)
  {
  }

  /**
    Two simulations from the same month, one owing no more than the other and paying at
    least as much extra from no later a month: it ends owing no more and accrues no more interest.
   */
  lemma {:induction false} RunMonotone(lo: Account, hi: Account, n: nat, rate: real, payment: real,
                                       extraLo: real, startLo: nat, extraHi: real, startHi: nat)
    requires lo.month == hi.month
    requires 0.0 <= lo.balance <= hi.balance && rate >= 0.0 && payment >= 0.0
    requires extraHi <= extraLo && startLo <= startHi
    decreases n - lo.month
    ensures RepayFrom(lo, n, rate, payment, extraLo, startLo).balance
         <= RepayFrom(hi, n, rate, payment, extraHi, startHi).balance
    ensures InterestFrom(lo, n, rate, payment, extraLo, startLo)
         <= InterestFrom(hi, n, rate, payment, extraHi, startHi)
  {
    if lo.month < n {
      var a := RepayMonth(lo, rate, payment, extraLo, startLo);
      var b := RepayMonth(hi, rate, payment, extraHi, startHi);
      MonthMonotone(lo, hi, rate, payment, extraLo, startLo, extraHi, startHi);
      if a.balance > 0.0 {
        RunMonotone(a, b, n, rate, payment, extraLo, startLo, extraHi, startHi);
      } else if b.balance > 0.0 {
        RepayFromConserves(b, n, rate, payment, extraHi, startHi);
      }
    }
  }

  /** The unclamped recurrence stays positive for months k up to n (exclusive). */
  predicate PositiveUntil(principal: real, rate: real, payment: real, k: nat, n: nat) {
    forall j: nat | k <= j < n :: Amortize(principal, rate, payment, j) > 0.0
  }

  /**
    Without extra payments, a balance that follows the unclamped recurrence and stays positive
    until it reaches zero at month n is paid off with one minimum payment per remaining month.
   */
  lemma {:induction false} BaselineFollowsAmortize(principal: real, rate: real, payment: real, n: nat,
                                                   startMonth: nat, a: Account)
    requires a.month < n && a.balance == Amortize(principal, rate, payment, a.month)
    requires PositiveUntil(principal, rate, payment, a.month, n)
    requires Amortize(principal, rate, payment, n) == 0.0
    decreases n - a.month
    ensures var r := RepayFrom(a, n, rate, payment, 0.0, startMonth);
      r.balance == 0.0 && r.paid == a.paid + Payments(n - a.month, payment) && r.month == n
  {
    var k := a.month;
    var b' := Amortize(principal, rate, payment, k + 1);
    assert a.balance > 0.0;
    assert b' == a.balance * (1.0 + rate) - payment;
    if k + 1 < n {
      assert b' > 0.0;
      var next := BaselineStep(a, rate, payment, startMonth);
      RepayFromUnfold(a, n, rate, payment, 0.0, startMonth);
      assert PositiveUntil(principal, rate, payment, k + 1, n);
      BaselineFollowsAmortize(principal, rate, payment, n, startMonth, next);
      assert Payments(n - k, payment) == Payments(n - (k + 1), payment) + payment;
    } else {
      var next := BaselineStep(a, rate, payment, startMonth);
      RepayFromUnfold(a, n, rate, payment, 0.0, startMonth);
      assert Payments(n - k, payment) == Payments(0, payment) + payment;
    }
  }

  /** m minimum payments added up one month at a time, as the loop's running total adds them. */
  function Payments(m: nat, payment: real): (s: real)
    ensures payment >= 0.0 ==> s >= 0.0
  {
    if m == 0 then 0.0 else Payments(m - 1, payment) + payment
  }

  /** Adding a payment m times is multiplying it by m. */
  lemma {:induction false} PaymentsIsProduct(m: nat, payment: real)
    ensures Payments(m, payment) == (m as real) * payment
  {
    if m > 0 {
      PaymentsIsProduct(m - 1, payment);
      MulSucc((m - 1) as real, payment);
    }
  }

  /** One month of the loop: it stops once nothing is owed, and carries on otherwise. */
  lemma RepayFromUnfold(a: Account, n: nat, rate: real, payment: real, extra: real, startMonth: nat)
    requires a.month < n
    ensures var next := RepayMonth(a, rate, payment, extra, startMonth);
      RepayFrom(a, n, rate, payment, extra, startMonth)
        == if next.balance <= 0.0 then next else RepayFrom(next, n, rate, payment, extra, startMonth)
  {
  }

  lemma MulSucc(m: real, payment: real)
    ensures (m + 1.0) * payment == m * payment + payment
  {
  }

  /** One month without extra on a positive balance the minimum repayment does not overshoot. */
  lemma BaselineStep(a: Account, rate: real, payment: real, startMonth: nat) returns (next: Account)
    requires a.balance > 0.0 && a.balance * (1.0 + rate) - payment >= 0.0
    ensures next == Account(a.balance * (1.0 + rate) - payment, a.paid + payment, a.month + 1)
    ensures RepayMonth(a, rate, payment, 0.0, startMonth) == next
  {
    var owed := a.balance + MonthInterest(a.balance, rate);
    assert owed == a.balance * (1.0 + rate);
    assert Min(payment, owed) == payment;
    next := RepayMonth(a, rate, payment, 0.0, startMonth);
  }

  /**
    With a positive rate and principal, and no extra payment in effect, the simulation pays
    exactly n minimum repayments and ends owing nothing.
   */
  lemma PaidInFullWithoutExtra(inputs: LoanInputs)
    requires inputs.principal > 0.0 && inputs.annualRate > 0.0 && inputs.termYears >= 1
    requires inputs.extra <= 0.0 || inputs.StartMonth() >= inputs.TermMonths()
    ensures var p := Repayment(inputs.principal, inputs.annualRate, inputs.termYears).value;
      Run(inputs, p) == Account(0.0, (inputs.TermMonths() as real) * p, inputs.TermMonths())
  {
    var p := Repayment(inputs.principal, inputs.annualRate, inputs.termYears).value;
    AnnuityPaysOff(inputs.principal, inputs.annualRate, inputs.termYears);
    PaidOffAtTerm(inputs.principal, inputs.Rate(), p, inputs.TermMonths(), inputs.extra, inputs.StartMonth());
  }

  /** The same statement about any payment whose unclamped schedule ends at exactly zero after n months. */
  lemma PaidOffAtTerm(principal: real, rate: real, payment: real, n: nat, extra: real, startMonth: nat)
    requires n >= 1 && PositiveUntil(principal, rate, payment, 0, n)
    requires Amortize(principal, rate, payment, n) == 0.0
    requires extra <= 0.0 || startMonth >= n
    ensures RepayFrom(Account(principal, 0.0, 0), n, rate, payment, extra, startMonth)
         == Account(0.0, (n as real) * payment, n)
  {
    var a := Account(principal, 0.0, 0);
    ExtraIgnoredUnlessStarted(a, n, rate, payment, extra, startMonth);
    BaselineFollowsAmortize(principal, rate, payment, n, startMonth, a);
    PaymentsIsProduct(n, payment);
  }

  /** The full-term minimum repayments add up to at least the principal. */
  lemma MinimumPaymentsCoverPrincipal(principal: real, annualRate: real, termYears: nat)
    requires principal >= 0.0 && annualRate > 0.0 && termYears >= 1
    ensures Repayment(principal, annualRate, termYears).value * ((termYears * 12) as real) >= principal
  {
    var p := Repayment(principal, annualRate, termYears).value;
    var n := (termYears * 12) as real;
    RepaymentSolvesAnnuity(principal, annualRate, termYears);
    assert p >= 0.0;
    if principal > 0.0 {
      var inputs := LoanInputs(principal, annualRate, termYears, 0.0, 0);
      PaidInFullWithoutExtra(inputs);
      TotalCoversPrincipal(inputs, p);
      assert (inputs.TermMonths() as real) * p >= principal;
    } else {
      MulNonNegative(p, n);
    }
  }

  /** A simulation that ends owing nothing has paid at least the principal. */
  lemma TotalCoversPrincipal(inputs: LoanInputs, payment: real)
    requires inputs.principal >= 0.0 && inputs.annualRate >= 0.0 && payment >= 0.0
    requires Run(inputs, payment).balance == 0.0
    ensures TotalRepaid(inputs, payment) >= inputs.principal
  {
    RunConserves(inputs, payment);
    assert RunInterest(inputs, payment) >= 0.0;
  }

  lemma MulNonNegative(a: real, b: real)
    requires a >= 0.0 && b >= 0.0
    ensures a * b >= 0.0
  {
  }

  /** Without an extra payment in effect no interest is saved. */
  lemma NoExtraSavesNothing(inputs: LoanInputs)
    requires inputs.principal > 0.0 && inputs.annualRate > 0.0 && inputs.termYears >= 1
    requires inputs.extra <= 0.0 || inputs.StartMonth() >= inputs.TermMonths()
    ensures InterestSaved(inputs).Some? && InterestSaved(inputs).value == 0.0
  {
    var p := Repayment(inputs.principal, inputs.annualRate, inputs.termYears).value;
    PaidInFullWithoutExtra(inputs);
    SavedIsWith(inputs, p);
  }

  /**
    A non-negative extra payment never costs interest, and paying more extra, or starting
    it earlier, saves at least as much.
   */
  lemma MoreExtraSavesMore(inputs: LoanInputs, extra: real, startAfterYears: nat)
    requires inputs.principal > 0.0 && inputs.annualRate > 0.0 && inputs.termYears >= 1
    requires 0.0 <= inputs.extra <= extra && startAfterYears <= inputs.startAfterYears
    ensures var more := inputs.(extra := extra, startAfterYears := startAfterYears);
      0.0 <= InterestSaved(inputs).value <= InterestSaved(more).value
  {
    var more := inputs.(extra := extra, startAfterYears := startAfterYears);
    var p := Repayment(inputs.principal, inputs.annualRate, inputs.termYears).value;
    SavedIsWith(inputs, p);
    SameLoanSaved(inputs, more, p);
    TotalsOrdered(inputs, extra, startAfterYears);
  }

  /** Changing only the extra and its start leaves the minimum repayment, and so the saving's form, unchanged. */
  lemma SameLoanSaved(inputs: LoanInputs, more: LoanInputs, p: real)
    requires more.principal == inputs.principal && more.annualRate == inputs.annualRate
    requires more.termYears == inputs.termYears
    requires Repayment(inputs.principal, inputs.annualRate, inputs.termYears) == Some(p)
    ensures InterestSaved(more).Some?
    ensures InterestSaved(more).value == p * (inputs.TermMonths() as real) - TotalRepaid(more, p)
  {
    assert more.TermMonths() == inputs.TermMonths();
    SavedIsWith(more, p);
  }

  /** The totals behind `MoreExtraSavesMore`: the n minimum repayments bound both from above. */
  lemma TotalsOrdered(inputs: LoanInputs, extra: real, startAfterYears: nat)
    requires inputs.principal > 0.0 && inputs.annualRate > 0.0 && inputs.termYears >= 1
    requires 0.0 <= inputs.extra <= extra && startAfterYears <= inputs.startAfterYears
    ensures var more := inputs.(extra := extra, startAfterYears := startAfterYears);
      var p := Repayment(inputs.principal, inputs.annualRate, inputs.termYears).value;
      var full := p * (inputs.TermMonths() as real);
      0.0 <= full - TotalRepaid(inputs, p) <= full - TotalRepaid(more, p)
  {
    var p := Repayment(inputs.principal, inputs.annualRate, inputs.termYears).value;
    BaselinePaysFull(inputs);
    RunsOrdered(inputs, extra, startAfterYears, p);
  }

  /** Without extra the minimum repayment is non-negative and the run pays exactly n of them. */
  lemma BaselinePaysFull(inputs: LoanInputs)
    requires inputs.principal > 0.0 && inputs.annualRate > 0.0 && inputs.termYears >= 1
    ensures var p := Repayment(inputs.principal, inputs.annualRate, inputs.termYears).value;
      p >= 0.0 && Run(inputs.(extra := 0.0), p) == Account(0.0, (inputs.TermMonths() as real) * p, inputs.TermMonths())
  {
    var base := inputs.(extra := 0.0);
    assert base.principal == inputs.principal && base.annualRate == inputs.annualRate;
    assert base.termYears == inputs.termYears && base.TermMonths() == inputs.TermMonths();
    PaidInFullWithoutExtra(base);
    RepaymentSolvesAnnuity(inputs.principal, inputs.annualRate, inputs.termYears);
  }

  /** `TotalsOrdered` for any non-negative payment whose run without extra pays n payments and ends owing nothing. */
  lemma RunsOrdered(inputs: LoanInputs, extra: real, startAfterYears: nat, p: real)
    requires inputs.principal >= 0.0 && inputs.annualRate >= 0.0 && p >= 0.0
    requires 0.0 <= inputs.extra <= extra && startAfterYears <= inputs.startAfterYears
    requires Run(inputs.(extra := 0.0), p) == Account(0.0, (inputs.TermMonths() as real) * p, inputs.TermMonths())
    ensures var more := inputs.(extra := extra, startAfterYears := startAfterYears);
      var full := p * (inputs.TermMonths() as real);
      0.0 <= full - TotalRepaid(inputs, p) <= full - TotalRepaid(more, p)
  {
    var more := inputs.(extra := extra, startAfterYears := startAfterYears);
    var n := inputs.TermMonths();
    var a := Account(inputs.principal, 0.0, 0);
    SavingsOrdered(inputs.principal, inputs.Rate(), p, n,
                   inputs.extra, inputs.StartMonth(), extra, more.StartMonth());
    assert more.TermMonths() == n && more.Rate() == inputs.Rate() && Start(more) == a;
    assert TotalRepaid(more, p) == RepayFrom(a, n, inputs.Rate(), p, extra, more.StartMonth()).paid;
  }

  /**
    Against a baseline that pays n full payments and ends owing nothing, a non-negative extra
    saves a non-negative amount, and more extra started no later saves at least as much.
   */
  lemma SavingsOrdered(principal: real, rate: real, payment: real, n: nat,
                       extraLo: real, startLo: nat, extraHi: real, startHi: nat)
    requires principal >= 0.0 && rate >= 0.0 && payment >= 0.0
    requires 0.0 <= extraLo <= extraHi && startHi <= startLo
    requires RepayFrom(Account(principal, 0.0, 0), n, rate, payment, 0.0, startLo)
          == Account(0.0, (n as real) * payment, n)
    ensures var lo := RepayFrom(Account(principal, 0.0, 0), n, rate, payment, extraLo, startLo);
      var hi := RepayFrom(Account(principal, 0.0, 0), n, rate, payment, extraHi, startHi);
      0.0 <= payment * (n as real) - lo.paid <= payment * (n as real) - hi.paid
  {
    PaidLess(principal, rate, payment, n, extraLo, startLo, 0.0, startLo);
    PaidLess(principal, rate, payment, n, extraHi, startHi, extraLo, startLo);
  }

  lemma SavedIsWith(inputs: LoanInputs, p: real)
    requires Repayment(inputs.principal, inputs.annualRate, inputs.termYears).Some?
    requires Repayment(inputs.principal, inputs.annualRate, inputs.termYears).value == p
    ensures InterestSaved(inputs).Some?
    ensures InterestSaved(inputs).value == p * (inputs.TermMonths() as real) - TotalRepaid(inputs, p)
  {
    assert InterestSaved(inputs) == SavedFor(inputs, Some(p));
  }

  /**
    Between two runs that both end with nothing owed, the one with more extra (started no
    later) pays no more in total, because it accrues no more interest.
   */
  lemma PaidLess(principal: real, rate: real, payment: real, n: nat,
                 extraLo: real, startLo: nat, extraHi: real, startHi: nat)
    requires principal >= 0.0 && rate >= 0.0 && payment >= 0.0
    requires extraHi <= extraLo && startLo <= startHi
    requires RepayFrom(Account(principal, 0.0, 0), n, rate, payment, extraHi, startHi).balance == 0.0
    ensures var lo := RepayFrom(Account(principal, 0.0, 0), n, rate, payment, extraLo, startLo);
      var hi := RepayFrom(Account(principal, 0.0, 0), n, rate, payment, extraHi, startHi);
      lo.balance == 0.0 && lo.paid <= hi.paid
  {
    var a := Account(principal, 0.0, 0);
    RunMonotone(a, a, n, rate, payment, extraLo, startLo, extraHi, startHi);
    RepayFromConserves(a, n, rate, payment, extraLo, startLo);
    RepayFromConserves(a, n, rate, payment, extraHi, startHi);
  }
}

=== FILE: seqs.dfy ===
/** Facts about sequences shared by the text and chart modules. */
module Seqs {

  /** Concatenation regroups freely. */
  lemma AppendAssoc<T>(a: seq<T>, b: seq<T>, c: seq<T>)
    ensures (a + b) + c == a + (b + c)
  {
  }
}

=== FILE: timesaved.dfy ===
/**
  `calculateTimeSaved`: two month counters. The first run pays only the minimum repayment
  and is never clamped; the second takes the extra off before interest is added (even when
  the extra is negative) and clamps the balance at zero. Both stop once nothing is owed or
  the term is over, and the result is the first count minus the second.
 */
module TimeSaved {
  import opened Loan

  /** The first loop: months until the unclamped minimum-payment balance is no longer positive. */
  function MonthsWithoutExtra(balance: real, rate: real, payment: real, month: nat, n: nat): (m: nat)
    decreases n - month
    ensures month <= m
    ensures month <= n ==> m <= n
    ensures balance <= 0.0 || month >= n ==> m == month
  {
    if balance > 0.0 && month < n then
      MonthsWithoutExtra(balance * (1.0 + rate) - payment, rate, payment, month + 1, n)
    else
      month
  }

  /** One pass of the second loop's body: extra off (once started), interest on, minimum off, clamp. */
  function ExtraStep(balance: real, rate: real, payment: real, extra: real, startMonth: nat, month: nat): (b: real)
    ensures b >= 0.0
  {
    ClampAtZero(AfterExtra(balance, extra, startMonth, month) * (1.0 + rate) - payment)
  }

  /** The balance once the extra has been taken off, in a month at or after the start. */
  function AfterExtra(balance: real, extra: real, startMonth: nat, month: nat): real {
    if month >= startMonth then balance - extra else balance
  }

  /** The second loop: months until the clamped balance with extra payments reaches zero. */
  function MonthsWithExtra(balance: real, rate: real, payment: real, extra: real, startMonth: nat,
                           month: nat, n: nat): (m: nat)
    decreases n - month
    ensures month <= m
    ensures month <= n ==> m <= n
    ensures balance <= 0.0 || month >= n ==> m == month
  {
    if balance > 0.0 && month < n then
      MonthsWithExtra(ExtraStep(balance, rate, payment, extra, startMonth, month),
                      rate, payment, extra, startMonth, month + 1, n)
    else
      month
  }

  /** The clamped balance with extra payments after k months, whatever it is. */
  function ExtraBalance(principal: real, rate: real, payment: real, extra: real, startMonth: nat, k: nat): (b: real)
    ensures k > 0 ==> b >= 0.0
  {
    if k == 0 then principal
    else ExtraStep(ExtraBalance(principal, rate, payment, extra, startMonth, k - 1), rate, payment, extra, startMonth, k - 1)
  }

  /** The value `calculateTimeSaved` returns for the given minimum repayment. */
  function TimeSaved(inputs: LoanInputs, payment: real): (t: int)
    ensures -(inputs.TermMonths() as int) <= t <= inputs.TermMonths()
  {
    var n := inputs.TermMonths();
    MonthsWithoutExtra(inputs.principal, inputs.Rate(), payment, 0, n)
      - MonthsWithExtra(inputs.principal, inputs.Rate(), payment, inputs.extra, inputs.StartMonth(), 0, n)
  }

  /** The two while loops of `calculateTimeSaved`, one after the other. */
  method CalculateTimeSaved(inputs: LoanInputs, payment: real) returns (saved: int)
    ensures saved == TimeSaved(inputs, payment)
  {
    var n := inputs.TermMonths();
    var totalMonthsWithoutExtra := CountWithoutExtra(inputs.principal, inputs.Rate(), payment, n);
    var month := CountWithExtra(inputs.principal, inputs.Rate(), payment, inputs.extra, inputs.StartMonth(), n);
    saved := totalMonthsWithoutExtra as int - month as int;
  }

  /** The first while loop. */
  method CountWithoutExtra(principal: real, rate: real, payment: real, n: nat) returns (month: nat)
    ensures month == MonthsWithoutExtra(principal, rate, payment, 0, n)
  {
    var balance := principal;
    month := 0;
    while balance > 0.0 && month < n
      invariant month <= n
      invariant MonthsWithoutExtra(balance, rate, payment, month, n) == MonthsWithoutExtra(principal, rate, payment, 0, n)
      decreases n - month
    {
      balance := balance * (1.0 + rate) - payment;
      month := month + 1;
    }
  }

  /** The second while loop. */
  method CountWithExtra(principal: real, rate: real, payment: real, extra: real, startAfterMonths: nat, n: nat)
    returns (month: nat)
    ensures month == MonthsWithExtra(principal, rate, payment, extra, startAfterMonths, 0, n)
  {
    var balance := principal;
    month := 0;
    while balance > 0.0 && month < n
      invariant month <= n
      invariant MonthsWithExtra(balance, rate, payment, extra, startAfterMonths, month, n)
             == MonthsWithExtra(principal, rate, payment, extra, startAfterMonths, 0, n)
      decreases n - month
    {
      balance := ExtraMonth(balance, rate, payment, extra, startAfterMonths, month);
      month := month + 1;
    }
  }

  /** The second loop's body as statements. */
  method ExtraMonth(balance: real, rate: real, payment: real, extra: real, startAfterMonths: nat, month: nat)
    returns (currentBalance: real)
    ensures currentBalance == ExtraStep(balance, rate, payment, extra, startAfterMonths, month)
  {
    currentBalance := balance;
    if month >= startAfterMonths {
      currentBalance := currentBalance - extra;
    }
    currentBalance := currentBalance * (1.0 + rate) - payment;
    if currentBalance < 0.0 {
      currentBalance := 0.0;
    }
  }

  /**
    The first count is the first month k at or after the starting one whose unclamped balance
    Amortize(k) is not positive, or n if there is none.
   */
  lemma {:induction false} BaselineCountIsFirstPayoff(principal: real, rate: real, payment: real, n: nat, k: nat)
    requires k <= n
    decreases n - k
    ensures var m := MonthsWithoutExtra(Amortize(principal, rate, payment, k), rate, payment, k, n);
      && (m == n || Amortize(principal, rate, payment, m) <= 0.0)
      && (forall j: nat | k <= j < m :: Amortize(principal, rate, payment, j) > 0.0)
  {
    var b := Amortize(principal, rate, payment, k);
    if b > 0.0 && k < n {
      WithoutExtraStep(b, rate, payment, k, n);
      assert Amortize(principal, rate, payment, k + 1) == b * (1.0 + rate) - payment;
      BaselineCountIsFirstPayoff(principal, rate, payment, n, k + 1);
    }
  }

  /**
    The second loop stops at the first month whose clamped balance is zero: from month k it
    counts to m, where m is n or the balance after m months is zero, and every month from k
    to m has a positive balance.
   */
  lemma {:induction false} ExtraCountIsFirstPayoff(principal: real, rate: real, payment: real, extra: real,
                                                   startMonth: nat, n: nat, k: nat)
    requires k <= n
    decreases n - k
    ensures var m := MonthsWithExtra(ExtraBalance(principal, rate, payment, extra, startMonth, k),
                                     rate, payment, extra, startMonth, k, n);
      && (m == n || ExtraBalance(principal, rate, payment, extra, startMonth, m) <= 0.0)
      && (forall j: nat | k <= j < m :: ExtraBalance(principal, rate, payment, extra, startMonth, j) > 0.0)
  {
    var b := ExtraBalance(principal, rate, payment, extra, startMonth, k);
    if b > 0.0 && k < n {
      assert ExtraBalance(principal, rate, payment, extra, startMonth, k + 1)
          == ExtraStep(b, rate, payment, extra, startMonth, k);
      ExtraCountIsFirstPayoff(principal, rate, payment, extra, startMonth, n, k + 1);
    }
  }

  lemma WithoutExtraStep(balance: real, rate: real, payment: real, k: nat, n: nat)
    requires balance > 0.0 && k < n
    ensures MonthsWithoutExtra(balance, rate, payment, k, n)
         == MonthsWithoutExtra(balance * (1.0 + rate) - payment, rate, payment, k + 1, n)
  {
  }

  /** With exact arithmetic the minimum repayment takes the whole term: the first count is n. */
  lemma BaselineRunsFullTerm(inputs: LoanInputs)
    requires inputs.principal > 0.0 && inputs.annualRate > 0.0 && inputs.termYears >= 1
    ensures var p := Repayment(inputs.principal, inputs.annualRate, inputs.termYears).value;
      MonthsWithoutExtra(inputs.principal, inputs.Rate(), p, 0, inputs.TermMonths()) == inputs.TermMonths()
  {
    var p := Repayment(inputs.principal, inputs.annualRate, inputs.termYears).value;
    AnnuityPaysOff(inputs.principal, inputs.annualRate, inputs.termYears);
    FullTermWhilePositive(inputs.principal, inputs.Rate(), p, inputs.TermMonths());
  }

  lemma FullTermWhilePositive(principal: real, rate: real, payment: real, n: nat)
    requires forall k: nat | k < n :: Amortize(principal, rate, payment, k) > 0.0
    ensures MonthsWithoutExtra(principal, rate, payment, 0, n) == n
  {
    BaselineCountIsFirstPayoff(principal, rate, payment, n, 0);
  }

  /**
    An extra payment that is zero, or that starts only once the term is over, changes nothing:
    the clamp then only hides balances that stop both loops anyway.
   */
  lemma {:induction false} ExtraIgnoredWhenAbsent(balance: real, rate: real, payment: real, extra: real,
                                                  startMonth: nat, month: nat, n: nat)
    requires extra == 0.0 || startMonth >= n
    decreases n - month
    ensures MonthsWithExtra(balance, rate, payment, extra, startMonth, month, n)
         == MonthsWithoutExtra(balance, rate, payment, month, n)
  {
    if balance > 0.0 && month < n {
      var next := balance * (1.0 + rate) - payment;
      var clamped := ExtraStep(balance, rate, payment, extra, startMonth, month);
      assert AfterExtra(balance, extra, startMonth, month) == balance;
      assert clamped == ClampAtZero(next);
      assert MonthsWithExtra(balance, rate, payment, extra, startMonth, month, n)
          == MonthsWithExtra(clamped, rate, payment, extra, startMonth, month + 1, n);
      WithoutExtraStep(balance, rate, payment, month, n);
      if next > 0.0 {
        assert clamped == next;
        ExtraIgnoredWhenAbsent(next, rate, payment, extra, startMonth, month + 1, n);
      } else {
        assert clamped == 0.0;
      }
    }
  }

  /** One clamped month is monotone in the balance and the extra. */
  lemma ExtraStepMonotone(lo: real, hi: real, rate: real, payment: real,
                          extraLo: real, startLo: nat, extraHi: real, startHi: nat, month: nat)
    requires lo <= hi && 1.0 + rate >= 0.0
    requires extraHi <= extraLo && 0.0 <= extraLo && startLo <= startHi
    ensures ExtraStep(lo, rate, payment, extraLo, startLo, month)
         <= ExtraStep(hi, rate, payment, extraHi, startHi, month)
  {
    var reducedLo := AfterExtra(lo, extraLo, startLo, month);
    var reducedHi := AfterExtra(hi, extraHi, startHi, month);
    assert reducedLo <= reducedHi;
    GrowMonotone(reducedLo, reducedHi, 1.0 + rate, payment, payment);
    var nextLo := reducedLo * (1.0 + rate) - payment;
    var nextHi := reducedHi * (1.0 + rate) - payment;
    ClampMonotone(nextLo, nextHi);
    assert ExtraStep(lo, rate, payment, extraLo, startLo, month) == ClampAtZero(nextLo);
    assert ExtraStep(hi, rate, payment, extraHi, startHi, month) == ClampAtZero(nextHi);
  }

  /** A smaller balance, more extra, or an earlier start never takes more months. */
  lemma {:induction false} ExtraRunMonotone(lo: real, hi: real, rate: real, payment: real,
                                            extraLo: real, startLo: nat, extraHi: real, startHi: nat,
                                            month: nat, n: nat)
    requires lo <= hi && 1.0 + rate >= 0.0
    requires extraHi <= extraLo && 0.0 <= extraLo && startLo <= startHi
    decreases n - month
    ensures MonthsWithExtra(lo, rate, payment, extraLo, startLo, month, n)
         <= MonthsWithExtra(hi, rate, payment, extraHi, startHi, month, n)
  {
    if lo > 0.0 && month < n {
      ExtraStepMonotone(lo, hi, rate, payment, extraLo, startLo, extraHi, startHi, month);
      ExtraRunMonotone(ExtraStep(lo, rate, payment, extraLo, startLo, month),
                       ExtraStep(hi, rate, payment, extraHi, startHi, month),
                       rate, payment, extraLo, startLo, extraHi, startHi, month + 1, n);
    }
  }

  /**
    With a non-negative extra and a non-negative rate the extra run is never longer than the
    minimum-payment run, so the time saved lies between 0 and the whole term.
   */
  lemma TimeSavedBounds(inputs: LoanInputs, payment: real)
    requires inputs.extra >= 0.0 && inputs.annualRate >= 0.0
    ensures 0 <= TimeSaved(inputs, payment) <= inputs.TermMonths()
  {
    var n := inputs.TermMonths();
    var rate := inputs.Rate();
    ExtraIgnoredWhenAbsent(inputs.principal, rate, payment, 0.0, inputs.StartMonth(), 0, n);
    ExtraRunMonotone(inputs.principal, inputs.principal, rate, payment,
                     inputs.extra, inputs.StartMonth(), 0.0, inputs.StartMonth(), 0, n);
  }

  /** More extra, started no later, saves at least as many months. */
  lemma TimeSavedMonotone(inputs: LoanInputs, payment: real, extra: real, startAfterYears: nat)
    requires 0.0 <= inputs.extra <= extra && startAfterYears <= inputs.startAfterYears
    requires inputs.annualRate >= 0.0
    ensures TimeSaved(inputs, payment)
         <= TimeSaved(inputs.(extra := extra, startAfterYears := startAfterYears), payment)
  {
    var more := inputs.(extra := extra, startAfterYears := startAfterYears);
    ExtraRunMonotone(inputs.principal, inputs.principal, inputs.Rate(), payment,
                     extra, more.StartMonth(), inputs.extra, inputs.StartMonth(), 0, inputs.TermMonths());
  }

  /** When the extra is zero or starts after the term, no time is saved. */
  lemma NoTimeSavedWithoutExtra(inputs: LoanInputs, payment: real)
    requires inputs.extra == 0.0 || inputs.StartMonth() >= inputs.TermMonths()
    ensures TimeSaved(inputs, payment) == 0
  {
    ExtraIgnoredWhenAbsent(inputs.principal, inputs.Rate(), payment, inputs.extra, inputs.StartMonth(),
                           0, inputs.TermMonths());
  }
}

=== FILE: wrappers.dfy ===
/** An optional value, shared by the model. */
module Wrappers {

  /** A value that may be absent; used where the browser code ends up with NaN. */
  datatype Option<+T> = None | Some(value: T)
}

=== FILE: years_field.dfy ===
/**
  The loan-term and start-delay fields of the form: on blur, `formatYears` keeps only the
  digits of the field, parses them in base 10 and rewrites the field as "<n> year" or
  "<n> years"; `preserveValueOnInvalidInput` puts the original text back if a formatter
  left the field empty.
 */
module YearsField {
  import opened Wrappers
  import opened Decimal
  import opened Seqs

  /** The field text with every non-digit removed (`replace(/[^\d]/g, '')`). */
  function Digits(s: string): (d: string)
    ensures AllDigits(d) && |d| <= |s|
    ensures |d| == 0 <==> forall i | 0 <= i < |s| :: !IsDigit(s[i])
    ensures AllDigits(s) ==> d == s
  {
    if |s| == 0 then ""
    else
      var rest := Digits(s[1..]);
      assert forall i | 1 <= i < |s| :: s[i] == s[1..][i - 1];
      assert AllDigits(s) ==> s == [s[0]] + s[1..];
      (if IsDigit(s[0]) then [s[0]] else "") + rest
  }

  /** Filtering distributes over concatenation: each character is kept or dropped on its own. */
  lemma {:induction false} DigitsOfConcat(a: string, b: string)
    ensures Digits(a + b) == Digits(a) + Digits(b)
  {
    if |a| == 0 {
      assert a + b == b;
    } else {
      var head := if IsDigit(a[0]) then [a[0]] else "";
      var ab := a + b;
      assert ab[0] == a[0];
      assert ab[1..] == a[1..] + b;
      assert Digits(ab) == head + Digits(a[1..] + b);
      DigitsOfConcat(a[1..], b);
      assert Digits(a) == head + Digits(a[1..]);
      AppendAssoc(head, Digits(a[1..]), Digits(b));
    }
  }

  /** `parseInt` of the filtered text: absent (NaN) exactly when the field has no digit. */
  function ParseYears(s: string): (n: Option<nat>)
    ensures n.None? <==> forall i | 0 <= i < |s| :: !IsDigit(s[i])
  {
    var d := Digits(s);
    if |d| == 0 then None else Some(Value(d))
  }

  /** The unit written after the number: plural only above one, so 0 reads "0 year". */
  function YearUnit(n: nat): (u: string)
    ensures u == " years" <==> n > 1
    ensures u == " year" <==> n <= 1
  {
    if n > 1 then " years" else " year"
  }

  /** `formatYears` applied to the field's value. */
  function FormatYears(s: string): (r: string)
    ensures ParseYears(s).None? ==> r == s
    ensures ParseYears(s).Some? ==> |r| > 0 && (r[|r| - 1] == 's' <==> ParseYears(s).value > 1)
    ensures ParseYears(s).Some? ==>
      r == Show(ParseYears(s).value) + (if ParseYears(s).value > 1 then " years" else " year")
  {
    match ParseYears(s)
    case None => s
    case Some(n) => Show(n) + YearUnit(n)
  }

  /** Reformatting reads back the number it wrote: the output parses to the input's value. */
  lemma ParseFormatYears(s: string)
    ensures ParseYears(FormatYears(s)) == ParseYears(s)
  {
    if ParseYears(s).Some? {
      var n := ParseYears(s).value;
      var r := Show(n) + YearUnit(n);
      assert r == FormatYears(s);
      DigitsOfConcat(Show(n), YearUnit(n));
      UnitHasNoDigits(n);
      assert Digits(r) == Show(n) + "" == Show(n);
      ValueOfShow(n);
    }
  }

  lemma UnitHasNoDigits(n: nat)
    ensures Digits(YearUnit(n)) == ""
  {
    var u := YearUnit(n);
    assert forall i | 0 <= i < |u| :: !IsDigit(u[i]);
  }

  /** Formatting an already formatted field changes nothing. */
  lemma FormatYearsIdempotent(s: string)
    ensures FormatYears(FormatYears(s)) == FormatYears(s)
  {
    ParseFormatYears(s);
  }

  /** The number written is canonical: leading zeros of the input are dropped. */
  lemma FormatYearsCanonical(s: string)
    requires ParseYears(s).Some?
    ensures var r := FormatYears(s);
      var k := LeadingDigits(r);
      Value(r[..k]) == ParseYears(s).value && (r[0] == '0' ==> k == 1)
  {
    var n := ParseYears(s).value;
    var r := FormatYears(s);
    LeadingDigitsOfConcat(Show(n), YearUnit(n));
    assert r[..|Show(n)|] == Show(n);
    ValueOfShow(n);
  }

  /** A character that is not a digit, anywhere in the field, has no effect once some digit is present. */
  lemma NonDigitIgnored(a: string, c: char, b: string)
    requires !IsDigit(c)
    requires ParseYears(a + b).Some?
    ensures FormatYears(a + [c] + b) == FormatYears(a + b)
  {
    DigitsOfConcat(a + [c], b);
    DigitsOfConcat(a, [c]);
    DigitsOfConcat(a, b);
    assert Digits([c]) == "" by {
      assert [c][1..] == "";
    }
    assert Digits(a + [c]) == Digits(a);
    assert Digits(a + [c] + b) == Digits(a + b);
  }

  /**
    A leading zero is dropped: the field reads the same with or without it, and a field with
    no other digit becomes "0 year".
   */
  lemma LeadingZeroDropped(s: string)
    ensures ParseYears(s).Some? ==> FormatYears("0" + s) == FormatYears(s)
    ensures ParseYears(s).None? ==> FormatYears("0" + s) == "0 year"
  {
    var d := Digits(s);
    DigitsOfConcat("0", s);
    assert Digits("0") == "0" by {
      assert "0"[1..] == "";
    }
    assert Digits("0" + s) == "0" + d;
    if |d| > 0 {
      LeadingZeroValue(d);
    } else {
      assert "0" + d == "0";
      assert Value("0") == 0 by { assert "0"[..0] == ""; }
    }
  }

  /** A bare zero takes the singular unit: "0" is rewritten as "0 year". */
  lemma ZeroIsSingular()
    ensures FormatYears("0") == "0 year"
  {
    assert Digits("0") == "0";
    assert Value("0") == 0 by { assert "0"[..0] == ""; }
  }

  /** `preserveValueOnInvalidInput`: run the formatter, and restore the original text if it left the field empty. */
  function PreserveValue(format: string -> string, value: string): (r: string)
    ensures format(value) != "" ==> r == format(value)
    ensures format(value) == "" ==> r == value
    ensures r == "" <==> value == "" && format(value) == ""
  {
    var formatted := format(value);
    if formatted == "" then value else formatted
  }

  /** For the years formatter the restore never changes anything: it empties a field only if it was empty. */
  lemma PreserveYearsIsFormatYears(s: string)
    ensures PreserveValue(FormatYears, s) == FormatYears(s)
  {
  }
}
